=== FILE: README.md ===
# SmartInvoice list and detail state, in Dafny

This project models the pure core of the SmartInvoice web client. That core is the state
logic the React components keep around their tables and dialogs:

- **Invoice list** (`InvoiceList`). This is the canonical list built when the invoices are
  fetched, plus the displayed list the table shows. Four exact-match filter criteria select
  from the canonical list. After a successful delete, update or create, the displayed list
  is patched locally. There is also an `isSubmitting` flag and the status colours.
- **Client list** (`ClientList`). It has the same load and patch logic. Rows are keyed by
  the string `id.toString()`, and the update turns that key back into an id with `parseInt`
  (`JsNumber`).
- **Invoice detail page** (`InvoiceDetail`). This covers what the page renders from its two
  queries, the total it shows (the sum of the item totals), and the requests its three
  dialogs send: item create, item update and header update.
- **Route guard** (`ProtectedRoute`). It makes the three-way decision on the identity query:
  render nothing, redirect to `/`, or render the children.

Each handler is a pure function. It takes a state record (and, where it sends one, the
settlement of its request: a `Reply<T>` that is either `Ok(value)` or `Rejected`). It returns
the next state and the request it sent. The shared pieces live in `Collections`: the
JavaScript `filter`, `find` and conditional `map`, and the stable ascending sort that
`Array.prototype.sort` performs. `Records` holds the server's records and the query and
reply shapes. `Run` folds a sequence of UI events over a list state, so invariants can be
stated over every reachable state.

What the code does, in brief:

- Patches after a mutation touch only the displayed list (`dataSource`), never the canonical
  one (`originalData`). So a later Search or Clear discards them.
- The filter compares invoice date and due date by exact equality. There are no date ranges.
  An unset due-date criterion lets every row through, the same as the other criteria.
- Saving the invoice header sends the `amount` typed into the form. It is not recomputed from
  the item totals.
- Each item mutation reloads the page. It does not patch the item list.
- There is no query-string sync of the filter, no token or session store, and no
  double-submit guard beyond the disabled OK button.

## Model

| member | source | states |
|---|---|---|
| Collections.Filter | src/components/invoiceList.tsx:188-197 | `filter` keeps exactly the elements that satisfy the predicate, as an order-preserving subsequence of its input |
| Collections.FilterMultiplicity | src/components/invoiceList.tsx:188-197 | `filter` keeps each satisfying element as many times as it occurs in the input, and no other element |
| Collections.FilterIdempotent | src/components/invoiceList.tsx:188-197 | filtering a filtered list again with the same predicate changes nothing |
| Collections.FilterCongruent | src/components/invoiceList.tsx:188-197 | two predicates that agree on every element give the same `filter` result |
| Collections.Find | src/components/invoiceList.tsx:121 | `find` gives the first element that satisfies the predicate, or nothing when none does |
| Collections.ReplaceWhere | src/components/invoiceList.tsx:147-151 | the conditional `map` keeps the length, replaces every matching element and leaves the rest in place |
| Collections.SortBy | src/components/invoiceList.tsx:70-72 | `slice().sort((a, b) => a.id - b.id)` returns a permutation of its input in ascending key order |
| Collections.SortByStable | src/components/invoiceList.tsx:72 | the sort is stable: elements with equal keys keep the order they were fetched in |
| JsNumber.ParseIntOfIntToString | src/components/ClientList.tsx:97 | `parseInt(id.toString())` gives back `id` for every integer id, negative ones included |
| JsNumber.IntToStringInjective | src/components/ClientList.tsx:45 | two ids give the same key string exactly when they are equal |
| JsNumber.IntToString | src/components/ClientList.tsx:45 | `id.toString()` is a non-empty string of decimal digits, with a leading `-` exactly for negative ids |
| JsNumber.IntToStringCanonical | src/components/ClientList.tsx:45 | the key is in canonical decimal form: "0" exactly for zero, and otherwise no leading zero, after the sign for negative ids |
| JsNumber.ParseInt | src/components/ClientList.tsx:97 | `parseInt` gives NaN exactly when, after leading white space and an optional sign, no decimal digit follows |
| InvoiceList.Normalise | src/components/invoiceList.tsx:68-82 | the loaded rows are the fetched invoices, the same multiset, sorted ascending by id, each row with `key == id` |
| InvoiceList.Matches | src/components/invoiceList.tsx:189-196 | a row matches exactly when each of the four criteria (invoice date, client, due date, status) is unset or equals the row's field. With all criteria unset every row matches |
| InvoiceList.NormaliseStable | src/components/invoiceList.tsx:70-78 | invoices that share an id keep their fetched order in the loaded rows |
| InvoiceList.Load | src/components/invoiceList.tsx:79-80 | on load the canonical and the displayed list are the same normalised rows, and nothing else changes |
| InvoiceList.HandleDelete | src/components/invoiceList.tsx:84-88 | the Delete link records the id and opens the confirmation, and changes nothing else |
| InvoiceList.HandleOkDelete | src/components/invoiceList.tsx:90-111 | with a truthy `selectedKey`, a delete is sent. On success the displayed list keeps exactly the rows with another id, in order and each as often as before, and the dialog closes. On failure nothing changes. With a null or 0 key nothing is sent |
| InvoiceList.DeleteRemovesOne | src/components/invoiceList.tsx:99-101 | with unique ids, a successful delete of a present id removes that one row and keeps the others in order |
| InvoiceList.DeleteAbsentKeepsRows | src/components/invoiceList.tsx:99-101 | deleting an id that no row carries leaves the displayed rows as they were |
| InvoiceList.DeleteFlow | src/components/invoiceList.tsx:84-111 | clicking Delete and confirming removes the rows with that id and keeps every other row, as often as before and in order. It never touches the canonical list. An invoice with id 0 is never deleted, because 0 is falsy |
| InvoiceList.ShowModal | src/components/invoiceList.tsx:113-118 | Add opens the dialog in create mode and changes nothing else. In particular the recorded invoice and both lists stay |
| InvoiceList.HandleEdit | src/components/invoiceList.tsx:120-132 | Edit on a displayed id enters edit mode and opens the dialog, but never records the edited invoice. An unknown id changes nothing |
| InvoiceList.HandleEditIntended | src/components/invoiceList.tsx:120-132 | the intended Edit also records the first displayed row with that id as the one being edited |
| InvoiceList.HandleOk | src/components/invoiceList.tsx:134-179 | `isSubmitting` is false afterwards. A failed validation changes only that flag. In edit mode without a recorded invoice, OK sends nothing and only closes the dialog. Create mode sends the form and on success appends one row keyed by the new id and closes the dialog, with nothing else changed. The update branch replaces every row with the edited id, keeps the length, and leaves edit mode and closes the dialog, with nothing else changed. A rejection changes nothing. The canonical list and the criteria are never touched |
| InvoiceList.AddFlow | src/components/invoiceList.tsx:156-168 | Add then OK sends a create. On success exactly one row, keyed by the new id, is appended after the unchanged rows |
| InvoiceList.HandleCancel | src/components/invoiceList.tsx:181-185 | Cancel closes both dialogs and changes nothing else: edit mode, the selected key, the criteria and both lists stay |
| InvoiceList.Search | src/components/invoiceList.tsx:187-199 | the displayed list becomes the canonical rows that pass every criterion, each as often as it occurs there, as an order-preserving subsequence of the canonical list |
| InvoiceList.SearchAllBlank | src/components/invoiceList.tsx:189-196 | with every criterion unset (null, `''` or client 0), Search displays the canonical list, as Clear does |
| InvoiceList.ClearedDateIsUnset | src/components/invoiceList.tsx:189 | a cleared date picker (`''`) filters exactly like no date at all |
| InvoiceList.SearchIdempotent | src/components/invoiceList.tsx:187-199 | searching twice with the same criteria gives the same state |
| InvoiceList.SearchIgnoresDisplayed | src/components/invoiceList.tsx:188 | Search gives the same rows whatever is displayed, so local patches are discarded |
| InvoiceList.CriteriaApplyOnSearch | src/components/invoiceList.tsx:319-367 | changing a criterion leaves the table as it is. Only Search applies the new criteria |
| InvoiceList.SetCriteria | src/components/invoiceList.tsx:319-320 | a filter widget stores its criterion and changes nothing else, so both lists stay as they are |
| InvoiceList.Reset | src/components/invoiceList.tsx:201-207 | Clear unsets all four criteria and displays the canonical list |
| InvoiceList.StatusColor | src/components/invoiceList.tsx:209-219 | the four known statuses get blue, orange, green and red. Every other status gets `default` |
| InvoiceList.EditingNeverRecorded | src/components/invoiceList.tsx:57 | no sequence of events ever sets `editingInvoice` |
| InvoiceList.NoUpdateIsEverSent | src/components/invoiceList.tsx:139-141 | from the initial state, the dialog's OK never sends an update |
| InvoiceList.OnlyFetchChangesOriginal | src/components/invoiceList.tsx:79 | only a fetch writes the canonical list. Deletes, updates, creates, searches and clears leave it alone |
| InvoiceList.EditThenSubmitIsInert | src/components/invoiceList.tsx:120-155 | Edit on an existing row then OK sends nothing and leaves the displayed rows as they were |
| InvoiceList.IntendedEditUpdates | src/components/invoiceList.tsx:139-154 | with the intended Edit, OK sends the update for the row's id, and on success replaces that row and keeps the length |
| InvoiceList.ClientFilterScenario | src/components/invoiceList.tsx:190-191 | client 7 selected over invoices of clients 7 and 9 displays only the first |
| ClientList.Normalise | src/components/ClientList.tsx:37-49 | the loaded rows are the fetched clients, the same multiset, sorted ascending by id, each with `key == id.toString()` |
| ClientList.Load | src/components/ClientList.tsx:37-49 | on load the displayed list is the normalised rows, all keyed by their ids, and nothing else changes |
| ClientList.KeysDistinctIffIdsDistinct | src/components/ClientList.tsx:45 | two loaded rows share a key exactly when their clients share an id |
| ClientList.HandleOkDelete | src/components/ClientList.tsx:56-74 | with a truthy `selectedKey`, a delete is sent. On success exactly the rows carrying that key are dropped, the others kept in order and each as often as before. On failure nothing changes. With no key nothing is sent |
| ClientList.DeleteRemovesOne | src/components/ClientList.tsx:64 | when one row carries the key, a successful delete removes that row alone |
| ClientList.HandleDelete | src/components/ClientList.tsx:51-54 | the Delete link records the key and opens the confirmation, and changes nothing else |
| ClientList.DeleteFlow | src/components/ClientList.tsx:51-74 | clicking Delete on a keyed row and confirming sends its key. On success no row with that key remains. On failure the rows and the dialog stay |
| ClientList.HandleEdit | src/components/ClientList.tsx:80-91 | when a displayed row carries the key, Edit records the first such row and enters edit mode. Otherwise the state is unchanged |
| ClientList.UpdatedRow | src/components/ClientList.tsx:97 | the row the update writes is the submitted form values with no key. Its id is the edited client's id whenever the edited row's key came from that id, and NaN when the edited row has no key |
| ClientList.HandleOk | src/components/ClientList.tsx:92-130 | the update replaces every row with the edited key, keeps the length, and clears edit mode and the recorded row and closes the dialog, with nothing else changed. Create appends one row keyed by `id.toString()` and closes the dialog, with nothing else changed. A rejection or a failed validation changes nothing. In edit mode without a recorded row OK only closes the dialog |
| ClientList.AddFlow | src/components/ClientList.tsx:112-122 | outside edit mode, Add then OK sends a create and on success appends exactly one row keyed by the new id |
| ClientList.ShowModal | src/components/ClientList.tsx:76-78 | Add only opens the dialog and changes nothing else: edit mode and the recorded row stay as they were |
| ClientList.HandleCancel | src/components/ClientList.tsx:132-135 | the confirmation's Cancel closes both dialogs, keeping edit mode, the recorded row, the selected key and the rows |
| ClientList.CancelForm | src/components/ClientList.tsx:213-216 | the form's Cancel closes the dialog and changes nothing else, so edit mode and the recorded row stay |
| ClientList.AddAfterCancelledEditUpdates | src/components/ClientList.tsx:76-98 | Add leaves edit mode as it was, so after a cancelled edit the Add dialog's OK sends an update |
| ClientList.ShowModalIntended | src/components/ClientList.tsx:76-78 | the intended Add opens the dialog out of edit mode, with no row recorded, and leaves the rows alone |
| ClientList.IntendedAddAfterCancelledEditCreates | src/components/ClientList.tsx:112-122 | with the intended Add, OK after a cancelled edit sends a create. On success it appends one row keyed by the new id after the unchanged rows |
| ClientList.RunKeepsInvariant | src/components/ClientList.tsx:80-111 | across any events, edit mode holds exactly when a row is recorded, and every key is its row's id in decimal |
| ClientList.UpdateCarriesEditedId | src/components/ClientList.tsx:97-98 | from the initial state, an update for a keyed row carries that row's client id |
| ClientList.UpdatedRowCannotBeDeleted | src/components/ClientList.tsx:104-108 | a row written by the update has no key, so its Delete link sends nothing |
| ClientList.UpdatedRowIntended | src/components/ClientList.tsx:104-108 | the intended update row keeps the edited row's key, and that key still matches the id |
| ClientList.IntendedUpdatedRowDeletable | src/components/ClientList.tsx:56-64 | with the intended update, the updated row can still be deleted by its key |
| InvoiceDetail.TotalAppend | src/Pages/Invoice.tsx:74-76 | the total of no items is 0, and the total is additive over concatenation |
| InvoiceDetail.TotalPermutation | src/Pages/Invoice.tsx:74-76 | the total does not depend on the order of the items |
| InvoiceDetail.TotalIsExtended | src/Pages/Invoice.tsx:74-76 | when every item's total is quantity times unit price, the shown total is the sum of those products |
| InvoiceDetail.TotalScenario | src/Pages/Invoice.tsx:74-76 | items of 2 at 10.5 and 1 at 5 total 26 |
| InvoiceDetail.Rows | src/Pages/Invoice.tsx:78-86 | there is one row per item, and each row's key is its item's id |
| InvoiceDetail.RowsRoundTrip | src/Pages/Invoice.tsx:78-86 | the rows carry exactly the items, in order and unchanged |
| InvoiceDetail.ClientName | src/Pages/Invoice.tsx:226 | the page shows the name of the first client whose id is the invoice's `client_id`, else "Not chosen" |
| InvoiceDetail.ErrorMessage | src/Pages/Invoice.tsx:65 | the invoice error's message is shown when present and non-empty, else the clients error's message |
| InvoiceDetail.Render | src/Pages/Invoice.tsx:49-72 | loading comes first, then an error, whose text is `ErrorMessage` of the two errors. Then missing invoice or clients. Once both are settled, error-free and present, the detail is shown: its rows are the items, its client name is `ClientName` of the invoice's `client_id`, and its total is their sum |
| InvoiceDetail.HandleAddOk | src/Pages/Invoice.tsx:92-108 | the create carries this invoice's id, the form's values and `total == quantity * unit_price`. On success the dialog closes and the page reloads. On failure nothing changes |
| InvoiceDetail.HandleDelete | src/Pages/Invoice.tsx:114-121 | the item's id is deleted, and the page reloads exactly when the delete succeeds |
| InvoiceDetail.HandleEditOk | src/Pages/Invoice.tsx:130-149 | the update carries the recorded item's id, this invoice's id and `total == quantity * unit_price`. Without a recorded item nothing is sent, yet the dialog closes and the page reloads |
| InvoiceDetail.EditFlow | src/Pages/Invoice.tsx:123-143 | Edit on a row then OK updates that row's item with the recomputed total |
| InvoiceDetail.HandleEdit | src/Pages/Invoice.tsx:123-128 | an item's Edit records that row and opens the edit dialog, leaving the other dialogs alone |
| InvoiceDetail.HandleHeaderOk | src/Pages/Invoice.tsx:160-178 | the header update uses the invoice's own id and the form's `amount` unchanged. The page reloads exactly when it succeeds |
| ProtectedRoute.Guard | src/Features/ProtectedRoute.tsx:5-18 | loading renders nothing, whatever error and data hold. Otherwise an error or missing data redirects to `/`. Only no error with data renders the children |
| ProtectedRoute.GuardFollowsAuthState | src/Features/ProtectedRoute.tsx:9-17 | the guard shows what the resolved authentication state calls for: unknown, unauthenticated or authenticated |
| ProtectedRoute.RedirectTarget | src/Features/ProtectedRoute.tsx:14 | the redirect goes to `/` with `replace` and carries the current location as `from` |

## Findings

| source | as written | input that shows it | evidently intended | confidence | as-written member | corrected member |
|---|---|---|---|---|---|---|
| src/components/invoiceList.tsx:120-132 | `handleEdit` sets `isEditMode` but never `editingInvoice`, so the update branch of `handleOk` (line 139) cannot run | any displayed invoice: click Edit, then OK with valid values | record the edited row so that OK sends the update and patches the row | high, not executed | InvoiceList.EditThenSubmitIsInert | InvoiceList.HandleEditIntended |
| src/components/ClientList.tsx:104-108 | the update patch writes `{...values, id}` with no `key`, so the updated row's Edit and Delete links pass `undefined` | edit a client and save, then click Delete on that row and confirm | keep the row's key when patching it | medium, not executed | ClientList.UpdatedRowCannotBeDeleted | ClientList.UpdatedRowIntended |
| src/components/ClientList.tsx:76-78 | `showModal` opens the dialog without leaving edit mode, and the cancel handler does not leave it either | Edit a client, Cancel, click Add, fill the form and press OK | Add leaves edit mode, as the invoice list's does, so OK creates a client | high, not executed | ClientList.AddAfterCancelledEditUpdates | ClientList.ShowModalIntended |

`InvoiceList.IntendedEditUpdates` proves that the corrected Edit, followed by OK, sends the
update. `ClientList.IntendedUpdatedRowDeletable` proves that the corrected row can still be
deleted. `ClientList.IntendedAddAfterCancelledEditCreates` proves that, with the corrected Add,
OK after a cancelled edit creates a client.

## Left out

- Date handling: `moment(...).format('YYYY-MM-DD')` on load and create (src/components/invoiceList.tsx:76-77, 165-166). Dates are opaque strings that are already normalised.
- Floating point: prices, quantities and totals are Dafny `real`. There is no binary rounding, and `toFixed(2)` display is not modelled (src/Pages/Invoice.tsx:286).
- InvoiceDetail.HandleAddOk: the quantity and unit price inputs are `<Input type='number' />` fields (src/Pages/Invoice.tsx:307, 314). They yield numeric strings, which `*` coerces to numbers and the payload sends as strings. The model takes them as reals already parsed, because the coercion is JavaScript's and not this code's.
- InvoiceDetail.HandleEditOk: the same holds for the edit dialog's quantity and unit price (src/Pages/Invoice.tsx:338, 345).
- InvoiceDetail.HandleHeaderOk: the same holds for the header's `amount` (src/Pages/Invoice.tsx:385), which is sent as the string typed.
- Ids and timestamps are unbounded integers, not IEEE doubles.
- JsNumber.ParseInt: only decimal input is modelled. The `0x` hexadecimal prefix, Unicode white space other than space, tab, CR and LF, and precision loss above 2^53 are not. Keys built from integer ids never contain any of these.
- The network: each mutation is an abstract `Reply`, and each query result is a parameter. The RTK Query slices and store under src/store are configuration, not part of this model.
- Async interleaving: a handler runs as one atomic step. So `isSubmitting` is observable only as false afterwards, and the disabled OK button is not modelled. Nor are stale replies after a component unmounts.
- Toasts, `console` logging, `navigate` to the new invoice after create (src/components/invoiceList.tsx:169), and form widget calls (`setFieldsValue`, `resetFields`). `window.location.reload()` is a flag in `InvoiceDetail.Effect`.
- Form validation is modelled only as "values present or rejected". The invoice list's form is its three registered fields. Its due date counts as a string, although the date picker yields a date object.
- The spinner and error screens of the two lists (src/components/invoiceList.tsx:277-278, src/components/ClientList.tsx:187-188), and all rendering, styling and routing (App, Workspace, Home, AppHeader, Spinner).
- Dialog open and close handlers of the detail page (`handleAdd`, the cancel handlers, `handleInvoiceEdit`'s form prefill) only flip visibility flags.
- `src/store/slice/authApi.ts:19` exports only `useAuthLoginMutation`, although the guard imports `useAuthMeQuery`. The guard is modelled as though that query existed.
- Filter-state serialisation to the URL, date-range filters, and bearer-token handling do not exist in this code.

=== FILE: client_list.dfy ===
/** The list state behind the client table (`src/components/ClientList.tsx`).
    Rows are keyed by the string `id.toString()`; delete and edit look rows
    up by that key, and the update patch turns the key back into an id with
    `parseInt`. There is no canonical copy and no filter. */
module ClientList {
  import opened Collections
  import opened Records
  import opened JsNumber

  /** The values of the add/edit dialog. */
  datatype ClientForm = ClientForm(name: string, phone: string, email: string, address: string)

  /** A table row. `Loaded` is `{...client, key}`, built on load and on
      create; `Patched` is `{...values, id: parseInt(key)}`, written by the
      update patch: it has no key, and its id is `None` when `parseInt`
      yields `NaN`. */
  datatype Row =
    | Loaded(key: string, client: Client)
    | Patched(id: Option<int>, form: ClientForm)

  /** The row's `key` property; `None` stands for `undefined`. */
  function RowKey(r: Row): Option<string>
  {
    match r
    case Loaded(key, _) => Some(key)
    case Patched(_, _) => None
  }

  /** A row's key, when it has one, is its client's id in decimal. */
  predicate KeyMatchesId(r: Row)
  {
    r.Loaded? ==> r.key == IntToString(r.client.id)
  }

  predicate KeysMatchIds(rows: seq<Row>)
  {
    forall i :: 0 <= i < |rows| ==> KeyMatchesId(rows[i])
  }

  function KeyIsValue(key: Option<string>): Row -> bool
  {
    r => RowKey(r) == key
  }

  function KeyIsNot(key: Option<string>): Row -> bool
  {
    r => RowKey(r) != key
  }

  datatype State = State(
    displayed: seq<Row>,
    modalVisible: bool,
    deleteModalVisible: bool,
    selectedKey: Option<string>,
    isEditMode: bool,
    editing: Option<Row>)

  const Initial := State([], false, false, None, false, None)

  /** The mutation a handler sends to the client endpoint. */
  datatype Request =
    | DeleteClient(key: string)
    | UpdateClient(id: Option<int>, form: ClientForm)
    | CreateClient(form: ClientForm)

  datatype Step = Step(state: State, request: Option<Request>)

  function ClientId(c: Client): int
  {
    c.id
  }

  /** The row `{ key: c.id.toString(), ...c }`. */
  function Keyed(c: Client): (r: Row)
    ensures r.Loaded? && r.client == c && KeyMatchesId(r)
  {
    Loaded(IntToString(c.id), c)
  }

  /** The clients of a list of loaded rows, in order. */
  function Clients(rows: seq<Row>): seq<Client>
    requires forall i :: 0 <= i < |rows| ==> rows[i].Loaded?
  {
    seq(|rows|, i requires 0 <= i < |rows| => rows[i].client)
  }

  /** The rows built on load: a sorted copy of the fetched clients, each keyed by its id. */
  function Normalise(fetched: seq<Client>): (rows: seq<Row>)
    ensures |rows| == |fetched|
    ensures forall i :: 0 <= i < |rows| ==> rows[i].Loaded? && KeyMatchesId(rows[i])
    ensures forall i, j :: 0 <= i < j < |rows| ==> rows[i].client.id <= rows[j].client.id
    ensures multiset(Clients(rows)) == multiset(fetched)
  {
    var sorted := SortBy(fetched, ClientId);
    var rows := seq(|sorted|, i requires 0 <= i < |sorted| => Keyed(sorted[i]));
    assert Clients(rows) == sorted;
    rows
  }

  /** Loaded rows have distinct keys exactly when their clients have distinct ids. */
  lemma KeysDistinctIffIdsDistinct(rows: seq<Row>, i: nat, j: nat)
    requires i < |rows| && j < |rows| && rows[i].Loaded? && rows[j].Loaded?
    requires KeysMatchIds(rows)
    ensures RowKey(rows[i]) == RowKey(rows[j]) <==> rows[i].client.id == rows[j].client.id
  {
    assert KeyMatchesId(rows[i]) && KeyMatchesId(rows[j]);
    IntToStringInjective(rows[i].client.id, rows[j].client.id);
  }

  /** The effect run when the fetched clients arrive. */
  function Load(s: State, fetched: seq<Client>): (r: State)
    ensures r.displayed == Normalise(fetched) && KeysMatchIds(r.displayed)
    ensures r == s.(displayed := r.displayed)
  {
    s.(displayed := Normalise(fetched))
  }

  /** The Delete link: remembers the row's key (possibly `undefined`) and opens the confirmation. */
  function HandleDelete(s: State, key: Option<string>): (r: State)
    ensures r.deleteModalVisible && r.selectedKey == key
    ensures r == s.(selectedKey := key, deleteModalVisible := true)
    ensures r.displayed == s.displayed && r.modalVisible == s.modalVisible && r.editing == s.editing
  {
    s.(selectedKey := key, deleteModalVisible := true)
  }

  /** `!selectedKey`: absent, or the empty string. */
  predicate BlankKey(k: Option<string>)
  {
    k.None? || k.value == ""
  }

  /** The confirmation's OK: deletes `selectedKey` when it is truthy and, on
      success, drops the rows carrying that key. */
  function HandleOkDelete(s: State, reply: Reply<()>): (r: Step)
    ensures BlankKey(s.selectedKey) ==> r == Step(s, None)
    ensures !BlankKey(s.selectedKey) ==> r.request == Some(DeleteClient(s.selectedKey.value))
    ensures reply.Rejected? ==> r.state == s
    ensures !BlankKey(s.selectedKey) && reply.Ok? ==>
      && IsSubsequence(r.state.displayed, s.displayed)
      && (forall i :: 0 <= i < |r.state.displayed| ==> RowKey(r.state.displayed[i]) != s.selectedKey)
      && (forall i :: 0 <= i < |s.displayed| && RowKey(s.displayed[i]) != s.selectedKey ==>
            s.displayed[i] in r.state.displayed)
      && (forall x :: multiset(r.state.displayed)[x] ==
            if RowKey(x) != s.selectedKey then multiset(s.displayed)[x] else 0)
      && r.state == s.(displayed := r.state.displayed, deleteModalVisible := false, selectedKey := None)
  {
    if BlankKey(s.selectedKey) then Step(s, None)
    else
      FilterMultiplicity(s.displayed, KeyIsNot(s.selectedKey));
      var next := match reply
        case Ok(_) =>
          s.(displayed := Filter(s.displayed, KeyIsNot(s.selectedKey)), deleteModalVisible := false, selectedKey := None)
        case Rejected => s;
      Step(next, Some(DeleteClient(s.selectedKey.value)))
  }

  /** When exactly one row carries the key, a successful delete removes that
      row alone and keeps the others in order. */
  lemma DeleteRemovesOne(s: State, i: nat)
    requires i < |s.displayed| && s.selectedKey == RowKey(s.displayed[i]) && !BlankKey(s.selectedKey)
    requires forall j :: 0 <= j < |s.displayed| && j != i ==> RowKey(s.displayed[j]) != s.selectedKey
    ensures HandleOkDelete(s, Ok(())).state.displayed == s.displayed[..i] + s.displayed[i + 1..]
  {
    FilterAllBut(s.displayed, KeyIsNot(s.selectedKey), i);
  }

  /** The Add button: only opens the dialog (edit mode is left as it was). */
  function ShowModal(s: State): (r: State)
    ensures r.modalVisible
    ensures r == s.(modalVisible := true)
    ensures r.isEditMode == s.isEditMode && r.editing == s.editing && r.displayed == s.displayed
  {
    s.(modalVisible := true)
  }

  /** The Edit link: when a row carries the key, records it and enters edit
      mode; otherwise nothing changes. */
  function HandleEdit(s: State, key: Option<string>): (r: State)
    ensures (exists i :: 0 <= i < |s.displayed| && RowKey(s.displayed[i]) == key) ==>
      && r.isEditMode && r.modalVisible && r.editing.Some?
      && (exists i :: 0 <= i < |s.displayed| && s.displayed[i] == r.editing.value && RowKey(s.displayed[i]) == key
            && forall j :: 0 <= j < i ==> RowKey(s.displayed[j]) != key)
      && r == s.(isEditMode := true, editing := r.editing, modalVisible := true)
    ensures (forall i :: 0 <= i < |s.displayed| ==> RowKey(s.displayed[i]) != key) ==> r == s
  {
    match Find(s.displayed, KeyIsValue(key))
    case Some(row) => s.(isEditMode := true, editing := Some(row), modalVisible := true)
    case None => s
  }

  /** `parseInt(editingClient.key)`: `parseInt(undefined)` is `NaN`. */
  function IdFromKey(key: Option<string>): Option<int>
  {
    match key
    case Some(k) => ParseInt(k)
    case None => None
  }

  /** The row the update patch writes: the form values and the id parsed
      back from the edited row's key. */
  function UpdatedRow(editing: Row, form: ClientForm): (r: Row)
    ensures r.Patched? && r.form == form && RowKey(r).None?
    ensures editing.Loaded? && KeyMatchesId(editing) ==> r.id == Some(editing.client.id)
    ensures RowKey(editing).None? ==> r.id.None?
  {
    KeyParsesToId(editing);
    Patched(IdFromKey(RowKey(editing)), form)
  }

  /** A keyed row's key parses back to its client's id. */
  lemma KeyParsesToId(r: Row)
    ensures r.Loaded? && KeyMatchesId(r) ==> IdFromKey(RowKey(r)) == Some(r.client.id)
  {
    if r.Loaded? {
      ParseIntOfIntToString(r.client.id);
    }
  }

  /** The dialog's OK. The update branch runs in edit mode with a recorded
      row, the create branch outside edit mode; `values` is the validated
      form and `reply` the settlement of the request sent. */
  function HandleOk(s: State, values: Option<ClientForm>, reply: Reply<Client>): (r: Step)
    ensures values.None? ==> r == Step(s, None)
    ensures r.request.Some? && reply.Rejected? ==> r.state == s
    ensures values.Some? && !s.isEditMode ==> r.request == Some(CreateClient(values.value))
    ensures values.Some? && !s.isEditMode && reply.Ok? ==>
      && r.state.displayed == s.displayed + [Keyed(reply.value)]
      && RowKey(Last(r.state.displayed)) == Some(IntToString(reply.value.id))
      && r.state == s.(displayed := s.displayed + [Keyed(reply.value)], modalVisible := false)
    ensures values.Some? && s.isEditMode && s.editing.Some? ==>
      r.request == Some(UpdateClient(UpdatedRow(s.editing.value, values.value).id, values.value))
    ensures values.Some? && s.isEditMode && s.editing.Some? && reply.Ok? ==>
      var key := RowKey(s.editing.value);
      && |r.state.displayed| == |s.displayed|
      && (forall i :: 0 <= i < |s.displayed| && RowKey(s.displayed[i]) != key ==>
            r.state.displayed[i] == s.displayed[i])
      && (forall i :: 0 <= i < |s.displayed| && RowKey(s.displayed[i]) == key ==>
            r.state.displayed[i] == UpdatedRow(s.editing.value, values.value))
      && r.state == s.(displayed := r.state.displayed, isEditMode := false, editing := None, modalVisible := false)
    ensures values.Some? && s.isEditMode && s.editing.None? ==> r == Step(s.(modalVisible := false), None)
  {
    match values
    case None => Step(s, None)
    case Some(form) =>
      if s.isEditMode && s.editing.Some? then
        var updated := UpdatedRow(s.editing.value, form);
        var next := match reply
          case Ok(_) =>
            s.(displayed := ReplaceWhere(s.displayed, KeyIsValue(RowKey(s.editing.value)), updated),
               isEditMode := false, editing := None, modalVisible := false)
          case Rejected => s;
        Step(next, Some(UpdateClient(updated.id, form)))
      else if !s.isEditMode then
        var next := match reply
          case Ok(created) => s.(displayed := s.displayed + [Keyed(created)], modalVisible := false)
          case Rejected => s;
        Step(next, Some(CreateClient(form)))
      else
        Step(s.(modalVisible := false), None)
  }

  function Last(rows: seq<Row>): Row
    requires |rows| > 0
  {
    rows[|rows| - 1]
  }

  /** The confirmation's Cancel: closes both dialogs. */
  function HandleCancel(s: State): (r: State)
    ensures !r.modalVisible && !r.deleteModalVisible
    ensures r.isEditMode == s.isEditMode && r.editing == s.editing && r.selectedKey == s.selectedKey
    ensures r.displayed == s.displayed
  {
    s.(modalVisible := false, deleteModalVisible := false)
  }

  /** The edit dialog's Cancel: closes it, keeping edit mode and the recorded row. */
  function CancelForm(s: State): (r: State)
    ensures !r.modalVisible
    ensures r == s.(modalVisible := false)
    ensures r.isEditMode == s.isEditMode && r.editing == s.editing && r.displayed == s.displayed
  {
    s.(modalVisible := false)
  }

  /** Delete link then confirmation: a row's key is deleted and, on success,
      no row with that key remains while the others stay in order. */
  lemma DeleteFlow(s: State, key: string, reply: Reply<()>)
    requires key != ""
    ensures var r := HandleOkDelete(HandleDelete(s, Some(key)), reply);
      && r.request == Some(DeleteClient(key))
      && (reply.Ok? ==>
            && IsSubsequence(r.state.displayed, s.displayed)
            && (forall i :: 0 <= i < |r.state.displayed| ==> RowKey(r.state.displayed[i]) != Some(key))
            && (forall i :: 0 <= i < |s.displayed| && RowKey(s.displayed[i]) != Some(key) ==>
                  s.displayed[i] in r.state.displayed)
            && (forall x :: multiset(r.state.displayed)[x] ==
                  if RowKey(x) != Some(key) then multiset(s.displayed)[x] else 0))
      && (reply.Rejected? ==> r.state.displayed == s.displayed && r.state.deleteModalVisible)
  {
  }

  /** Add button then OK outside edit mode: the form is sent as a new client
      and, on success, exactly one row keyed by the new id's decimal string
      is appended at the end. */
  lemma AddFlow(s: State, form: ClientForm, reply: Reply<Client>)
    requires !s.isEditMode
    ensures var r := HandleOk(ShowModal(s), Some(form), reply);
      && r.request == Some(CreateClient(form))
      && (reply.Ok? ==>
            && |r.state.displayed| == |s.displayed| + 1
            && r.state.displayed[..|s.displayed|] == s.displayed
            && RowKey(r.state.displayed[|s.displayed|]) == Some(IntToString(reply.value.id)))
  {
  }

  /** Add does not leave edit mode: after an edit is cancelled, the Add
      dialog's OK sends an update of the row edited before, not a create. */
  lemma AddAfterCancelledEditUpdates(s: State, i: nat, form: ClientForm, reply: Reply<Client>)
    requires i < |s.displayed|
    ensures var edited := HandleEdit(s, RowKey(s.displayed[i]));
      var r := HandleOk(ShowModal(CancelForm(edited)), Some(form), reply);
      r.request.Some? && r.request.value.UpdateClient?
  {
  }

  /** The update patch as evidently intended, `{...item, ...values, id}`:
      the row keeps its key and creation time and takes the form's values. */
  function UpdatedRowIntended(editing: Row, form: ClientForm): (r: Row)
    ensures RowKey(r) == RowKey(editing)
    ensures KeyMatchesId(editing) ==> KeyMatchesId(r)
  {
    match editing
    case Loaded(key, c) =>
      Loaded(key, Client(c.id, c.createdAt, form.name, form.phone, form.email, form.address))
    case Patched(id, _) => Patched(id, form)
  }

  /** With the intended patch, a row updated from a keyed row can still be deleted by its key. */
  lemma IntendedUpdatedRowDeletable(s: State, form: ClientForm, reply: Reply<()>)
    requires s.editing.Some? && s.editing.value.Loaded? && s.editing.value.key != ""
    ensures var row := UpdatedRowIntended(s.editing.value, form);
      HandleOkDelete(HandleDelete(s, RowKey(row)), reply).request == Some(DeleteClient(s.editing.value.key))
  {
  }

  /** The Add button as evidently intended: like the invoice list's, it
      leaves edit mode, so its dialog creates a client. */
  function ShowModalIntended(s: State): (r: State)
    ensures r.modalVisible && !r.isEditMode && r.editing.None?
    ensures r.displayed == s.displayed
  {
    s.(modalVisible := true, isEditMode := false, editing := None)
  }

  /** With the intended Add, a cancelled edit no longer matters: OK sends a
      create and, on success, appends one row keyed by the new id. */
  lemma IntendedAddAfterCancelledEditCreates(s: State, i: nat, form: ClientForm, reply: Reply<Client>)
    requires i < |s.displayed|
    ensures var edited := HandleEdit(s, RowKey(s.displayed[i]));
      var r := HandleOk(ShowModalIntended(CancelForm(edited)), Some(form), reply);
      && r.request == Some(CreateClient(form))
      && (reply.Ok? ==>
            && |r.state.displayed| == |s.displayed| + 1
            && r.state.displayed[..|s.displayed|] == s.displayed
            && RowKey(r.state.displayed[|s.displayed|]) == Some(IntToString(reply.value.id)))
  {
  }

  /** Everything the user and the fetch can do to the list. */
  datatype Event =
    | Fetched(clients: seq<Client>)
    | DeleteClicked(deleteKey: Option<string>)
    | DeleteConfirmed(deleteReply: Reply<()>)
    | AddClicked
    | EditClicked(editKey: Option<string>)
    | Submitted(values: Option<ClientForm>, reply: Reply<Client>)
    | Cancelled
    | FormCancelled

  function Apply(s: State, e: Event): State
  {
    match e
    case Fetched(clients) => Load(s, clients)
    case DeleteClicked(key) => HandleDelete(s, key)
    case DeleteConfirmed(reply) => HandleOkDelete(s, reply).state
    case AddClicked => ShowModal(s)
    case EditClicked(key) => HandleEdit(s, key)
    case Submitted(values, reply) => HandleOk(s, values, reply).state
    case Cancelled => HandleCancel(s)
    case FormCancelled => CancelForm(s)
  }

  function Run(s: State, events: seq<Event>): State
    decreases |events|
  {
    if |events| == 0 then s else Run(Apply(s, events[0]), events[1..])
  }

  /** What every handler keeps: edit mode holds exactly when a row is
      recorded, every keyed row's key is its id in decimal, and so is the
      recorded row's. */
  predicate Invariant(s: State)
  {
    && (s.isEditMode <==> s.editing.Some?)
    && KeysMatchIds(s.displayed)
    && (s.editing.Some? ==> KeyMatchesId(s.editing.value))
  }

  lemma FilterKeepsKeys(rows: seq<Row>, p: Row -> bool)
    requires KeysMatchIds(rows)
    ensures KeysMatchIds(Filter(rows, p))
  {
    var r := Filter(rows, p);
    forall i | 0 <= i < |r| ensures KeyMatchesId(r[i]) {
      var j :| 0 <= j < |rows| && rows[j] == r[i];
    }
  }

  lemma ApplyKeepsInvariant(s: State, e: Event)
    requires Invariant(s)
    ensures Invariant(Apply(s, e))
  {
    match e
    case DeleteConfirmed(reply) =>
      if !BlankKey(s.selectedKey) && reply.Ok? {
        FilterKeepsKeys(s.displayed, KeyIsNot(s.selectedKey));
      }
    case EditClicked(key) =>
      var r := HandleEdit(s, key);
      if r.editing.Some? && r != s {
        var j :| 0 <= j < |s.displayed| && s.displayed[j] == r.editing.value;
      }
    case Submitted(values, reply) =>
      var r := HandleOk(s, values, reply).state;
      forall i | 0 <= i < |r.displayed| ensures KeyMatchesId(r.displayed[i]) {
        if values.Some? && s.isEditMode && s.editing.Some? && reply.Ok? {
          assert r.displayed[i] == s.displayed[i] || r.displayed[i].Patched?;
        } else if values.Some? && !s.isEditMode && reply.Ok? && i == |s.displayed| {
          assert r.displayed[i] == Keyed(reply.value);
        }
      }
    case _ =>
  }

  /** The invariant holds after any sequence of events from a state that has it. */
  lemma {:induction false} RunKeepsInvariant(s: State, events: seq<Event>)
    requires Invariant(s)
    ensures Invariant(Run(s, events))
    decreases |events|
  {
    if |events| > 0 {
      ApplyKeepsInvariant(s, events[0]);
      RunKeepsInvariant(Apply(s, events[0]), events[1..]);
    }
  }

  /** From the initial state, an update sent for a keyed row carries that
      row's client id: `parseInt(id.toString()) == id`. */
  lemma UpdateCarriesEditedId(events: seq<Event>, form: ClientForm, reply: Reply<Client>)
    ensures var s := Run(Initial, events);
      s.isEditMode && s.editing.Some? && s.editing.value.Loaded? ==>
        HandleOk(s, Some(form), reply).request == Some(UpdateClient(Some(s.editing.value.client.id), form))
  {
    RunKeepsInvariant(Initial, events);
  }

  /** After a successful update the rewritten row has no key, so its Delete
      link records `undefined` and the confirmation sends nothing. */
  lemma UpdatedRowCannotBeDeleted(s: State, form: ClientForm, reply: Reply<()>)
    requires s.isEditMode && s.editing.Some?
    ensures var row := UpdatedRow(s.editing.value, form);
      HandleOkDelete(HandleDelete(s, RowKey(row)), reply).request.None?
  {
  }
}

=== FILE: collections.dfy ===
/** Sequence operations the list views are built from: the JavaScript array
    methods `filter`, `find` and a conditional `map`, and the stable
    `sort` of ECMAScript 2019 and later. */
module Collections {

  /** A value that may be absent (`null` or `undefined` in the source). */
  datatype Option<+T> = None | Some(value: T)

  /** `a` occurs in `b` in the same order, possibly with other elements in between. */
  predicate IsSubsequence<T(==)>(a: seq<T>, b: seq<T>)
    decreases |b|
  {
    if |a| == 0 then true
    else if |b| == 0 then false
    else if a[0] == b[0] then IsSubsequence(a[1..], b[1..])
    else IsSubsequence(a, b[1..])
  }

  /** `xs.filter(p)`: the elements satisfying `p`, in their original order. */
  function Filter<T(==)>(xs: seq<T>, p: T -> bool): (r: seq<T>)
    ensures |r| <= |xs|
    ensures forall i :: 0 <= i < |r| ==> p(r[i]) && r[i] in xs
    ensures forall i :: 0 <= i < |xs| && p(xs[i]) ==> xs[i] in r
    ensures IsSubsequence(r, xs)
  {
    if |xs| == 0 then []
    else if p(xs[0]) then
      var rest := Filter(xs[1..], p);
      assert ([xs[0]] + rest)[1..] == rest;
      [xs[0]] + rest
    else Filter(xs[1..], p)
  }

  /** Filtering with a predicate every element satisfies changes nothing. */
  lemma {:induction false} FilterAll<T>(xs: seq<T>, p: T -> bool)
    requires forall i :: 0 <= i < |xs| ==> p(xs[i])
    ensures Filter(xs, p) == xs
  {
    if |xs| > 0 {
      FilterAll(xs[1..], p);
      assert [xs[0]] + xs[1..] == xs;
    }
  }

  /** Predicates that agree on every element filter alike. */
  lemma {:induction false} FilterCongruent<T>(xs: seq<T>, p: T -> bool, q: T -> bool)
    requires forall i :: 0 <= i < |xs| ==> p(xs[i]) == q(xs[i])
    ensures Filter(xs, p) == Filter(xs, q)
  {
    if |xs| > 0 {
      FilterCongruent(xs[1..], p, q);
    }
  }

  /** One step of `Filter`: the head is kept exactly when it satisfies `p`. */
  lemma FilterCons<T>(xs: seq<T>, p: T -> bool)
    requires |xs| > 0
    ensures p(xs[0]) ==> Filter(xs, p) == [xs[0]] + Filter(xs[1..], p)
    ensures !p(xs[0]) ==> Filter(xs, p) == Filter(xs[1..], p)
  {
  }

  /** Dropping index `i` commutes with taking the head off. */
  lemma DropAtCons<T>(xs: seq<T>, i: nat)
    requires 0 < i < |xs|
    ensures [xs[0]] + (xs[1..][..i - 1] + xs[1..][i..]) == xs[..i] + xs[i + 1..]
  {
    assert [xs[0]] + xs[1..][..i - 1] == xs[..i];
    assert xs[1..][i..] == xs[i + 1..];
  }

  /** `Filter` keeps every element satisfying `p` as often as it occurs in
      `xs`, and no other element at all. */
  lemma {:induction false} FilterMultiplicity<T>(xs: seq<T>, p: T -> bool)
    ensures forall x :: multiset(Filter(xs, p))[x] == if p(x) then multiset(xs)[x] else 0
  {
    if |xs| > 0 {
      var tail := xs[1..];
      FilterMultiplicity(tail, p);
      FilterCons(xs, p);
      assert multiset(xs) == multiset{xs[0]} + multiset(tail) by {
        assert xs == [xs[0]] + tail;
      }
      if p(xs[0]) {
        assert multiset(Filter(xs, p)) == multiset{xs[0]} + multiset(Filter(tail, p));
      }
    }
  }

  /** When exactly the element at `i` fails `p`, filtering removes that one
      element and keeps every other in order. */
  lemma {:induction false} FilterAllBut<T>(xs: seq<T>, p: T -> bool, i: nat)
    requires i < |xs| && !p(xs[i])
    requires forall j :: 0 <= j < |xs| && j != i ==> p(xs[j])
    ensures Filter(xs, p) == xs[..i] + xs[i + 1..]
  {
    var tail := xs[1..];
    FilterCons(xs, p);
    if i == 0 {
      FilterAll(tail, p);
    } else {
      forall j | 0 <= j < |tail| && j != i - 1 ensures p(tail[j]) {
        assert tail[j] == xs[j + 1];
      }
      FilterAllBut(tail, p, i - 1);
      DropAtCons(xs, i);
    }
  }

  /** Filtering is idempotent. */
  lemma {:induction false} FilterIdempotent<T>(xs: seq<T>, p: T -> bool)
    ensures Filter(Filter(xs, p), p) == Filter(xs, p)
  {
    FilterAll(Filter(xs, p), p);
  }

  /** Index of the first element satisfying `p` (`findIndex`, with `None` for -1). */
  function FindIndex<T>(xs: seq<T>, p: T -> bool): (r: Option<nat>)
    ensures r.Some? ==> r.value < |xs| && p(xs[r.value])
    ensures r.Some? ==> forall j :: 0 <= j < r.value ==> !p(xs[j])
    ensures r.None? ==> forall j :: 0 <= j < |xs| ==> !p(xs[j])
  {
    if |xs| == 0 then None
    else if p(xs[0]) then Some(0)
    else match FindIndex(xs[1..], p)
      case None => None
      case Some(i) => Some(i + 1)
  }

  /** `xs.find(p)`: the first element satisfying `p`, `None` for `undefined`. */
  function Find<T>(xs: seq<T>, p: T -> bool): (r: Option<T>)
    ensures r.None? <==> forall j :: 0 <= j < |xs| ==> !p(xs[j])
    ensures r.Some? ==> exists i :: 0 <= i < |xs| && xs[i] == r.value && p(xs[i])
                                    && forall j :: 0 <= j < i ==> !p(xs[j])
  {
    match FindIndex(xs, p)
    case None => None
    case Some(i) => Some(xs[i])
  }

  /** `xs.map(x => p(x) ? v : x)`: every element satisfying `p` becomes `v`. */
  function ReplaceWhere<T>(xs: seq<T>, p: T -> bool, v: T): (r: seq<T>)
    ensures |r| == |xs|
    ensures forall i :: 0 <= i < |xs| && !p(xs[i]) ==> r[i] == xs[i]
    ensures forall i :: 0 <= i < |xs| && p(xs[i]) ==> r[i] == v
  {
    if |xs| == 0 then []
    else [if p(xs[0]) then v else xs[0]] + ReplaceWhere(xs[1..], p, v)
  }

  /** Keys never decrease from left to right. */
  predicate SortedBy<T>(xs: seq<T>, key: T -> int)
  {
    forall i, j :: 0 <= i < j < |xs| ==> key(xs[i]) <= key(xs[j])
  }

  /** Inserts `x` before the first element whose key is not smaller. */
  function InsertBy<T(==)>(x: T, xs: seq<T>, key: T -> int): (r: seq<T>)
    requires SortedBy(xs, key)
    ensures SortedBy(r, key)
    ensures multiset(r) == multiset(xs) + multiset{x}
    ensures |r| == |xs| + 1
    ensures r[0] == x || (|xs| > 0 && r[0] == xs[0])
  {
    if |xs| == 0 || key(x) <= key(xs[0]) then [x] + xs
    else
      var tail := InsertBy(x, xs[1..], key);
      assert xs == [xs[0]] + xs[1..];
      assert forall j :: 0 <= j < |tail| ==> key(xs[0]) <= key(tail[0]) <= key(tail[j]);
      [xs[0]] + tail
  }

  /** `xs.slice().sort((a, b) => key(a) - key(b))`: a stable ascending sort. */
  function SortBy<T(==)>(xs: seq<T>, key: T -> int): (r: seq<T>)
    ensures SortedBy(r, key)
    ensures multiset(r) == multiset(xs)
    ensures |r| == |xs|
  {
    if |xs| == 0 then []
    else
      assert xs == [xs[0]] + xs[1..];
      InsertBy(xs[0], SortBy(xs[1..], key), key)
  }

  /** Selects the elements whose key is `k`. */
  function KeyIs<T>(key: T -> int, k: int): T -> bool
  {
    x => key(x) == k
  }

  lemma {:induction false} InsertByStable<T>(x: T, xs: seq<T>, key: T -> int, k: int)
    requires SortedBy(xs, key)
    ensures Filter(InsertBy(x, xs, key), KeyIs(key, k)) == Filter([x] + xs, KeyIs(key, k))
  {
    if |xs| == 0 || key(x) <= key(xs[0]) {
    } else {
      var p := KeyIs(key, k);
      InsertByStable(x, xs[1..], key, k);
      assert InsertBy(x, xs, key) == [xs[0]] + InsertBy(x, xs[1..], key);
      assert ([xs[0]] + InsertBy(x, xs[1..], key))[1..] == InsertBy(x, xs[1..], key);
      assert ([x] + xs[1..])[1..] == xs[1..];
      assert ([x] + xs)[1..] == xs;
      if key(x) == k {
        assert !p(xs[0]);
      }
    }
  }

  /** The sort is stable: elements with equal keys keep their relative order. */
  lemma {:induction false} SortByStable<T>(xs: seq<T>, key: T -> int, k: int)
    ensures Filter(SortBy(xs, key), KeyIs(key, k)) == Filter(xs, KeyIs(key, k))
  {
    if |xs| > 0 {
      var p := KeyIs(key, k);
      var rest := SortBy(xs[1..], key);
      InsertByStable(xs[0], rest, key, k);
      SortByStable(xs[1..], key, k);
      assert ([xs[0]] + rest)[1..] == rest;
    }
  }
}

=== FILE: invoice_detail.dfy ===
/** The invoice detail page (`src/Pages/Invoice.tsx`): what it renders from
    the invoice record and client queries, the invoice total it shows, and
    the requests its item and header dialogs send. Every successful
    mutation ends in a full page reload, modelled as a flag. */
module InvoiceDetail {
  import opened Collections
  import opened Records

  /** The `{ result1, items }` record the invoice query returns. */
  datatype InvoiceRecord = InvoiceRecord(header: Invoice, items: seq<InvoiceItem>)

  /** A table row: the item with `key` set to its id. */
  datatype ItemRow = ItemRow(key: int, item: InvoiceItem)

  /** What the page renders. */
  datatype View =
    | Spinner
    | ErrorPanel(message: Option<string>)
    | NotFound
    | Detail(header: Invoice, rows: seq<ItemRow>, clientName: string, total: real)

  /** A line's total: quantity times unit price. */
  function LineTotal(quantity: real, unitPrice: real): real
  {
    quantity * unitPrice
  }

  /** `items.reduce((acc, item) => acc + item.total, 0)`, folding from the left. */
  function Total(items: seq<InvoiceItem>): real
  {
    if |items| == 0 then 0.0 else Total(items[..|items| - 1]) + items[|items| - 1].total
  }

  /** The total of no items is zero and the total is additive over concatenation. */
  lemma {:induction false} TotalAppend(a: seq<InvoiceItem>, b: seq<InvoiceItem>)
    ensures Total(a + b) == Total(a) + Total(b)
    decreases |b|
  {
    if |b| > 0 {
      var b' := b[..|b| - 1];
      assert (a + b)[..|a + b| - 1] == a + b';
      TotalAppend(a, b');
    } else {
      assert a + b == a;
    }
  }

  /** Whatever the order of the items, their total is the same. */
  lemma {:induction false} TotalPermutation(a: seq<InvoiceItem>, b: seq<InvoiceItem>)
    requires multiset(a) == multiset(b)
    ensures Total(a) == Total(b)
    decreases |a|
  {
    if |a| > 0 {
      var x := a[|a| - 1];
      assert x in multiset(b);
      var i :| 0 <= i < |b| && b[i] == x;
      var a' := a[..|a| - 1];
      var b' := b[..i] + b[i + 1..];
      assert a == a' + [x];
      assert b == b[..i] + [x] + b[i + 1..];
      assert multiset(a) == multiset(a') + multiset{x};
      assert multiset(b) == multiset(b[..i]) + multiset{x} + multiset(b[i + 1..]);
      assert multiset(b') == multiset(b[..i]) + multiset(b[i + 1..]);
      assert multiset(a') == multiset(a) - multiset{x};
      assert multiset(b') == multiset(b) - multiset{x};
      TotalPermutation(a', b');
      TotalAppend(b[..i] + [x], b[i + 1..]);
      TotalAppend(b[..i], [x]);
      TotalAppend(b[..i], b[i + 1..]);
      assert Total([x]) == x.total by {
        assert [x][..0] == [];
      }
    } else {
      assert b == [];
    }
  }

  /** The table rows: the items in order, each keyed by its id and otherwise unchanged. */
  function Rows(items: seq<InvoiceItem>): (rows: seq<ItemRow>)
    ensures |rows| == |items|
    ensures forall i :: 0 <= i < |rows| ==> rows[i].key == rows[i].item.id
  {
    seq(|items|, i requires 0 <= i < |items| => ItemRow(items[i].id, items[i]))
  }

  /** The items behind a list of rows. */
  function ItemsOf(rows: seq<ItemRow>): seq<InvoiceItem>
  {
    seq(|rows|, i requires 0 <= i < |rows| => rows[i].item)
  }

  /** The rows carry exactly the items, in order. */
  lemma RowsRoundTrip(items: seq<InvoiceItem>)
    ensures ItemsOf(Rows(items)) == items
  {
  }

  function HasClientId(id: int): Client -> bool
  {
    (c: Client) => c.id == id
  }

  /** The name of the first client whose id is the invoice's `client_id`, else "Not chosen". */
  function ClientName(clients: seq<Client>, clientId: int): (name: string)
    ensures (forall i :: 0 <= i < |clients| ==> clients[i].id != clientId) ==> name == "Not chosen"
    ensures forall i :: (0 <= i < |clients| && clients[i].id == clientId
      && forall j :: 0 <= j < i ==> clients[j].id != clientId) ==> name == clients[i].name
  {
    match FindIndex(clients, HasClientId(clientId))
    case Some(i) => clients[i].name
    case None => "Not chosen"
  }

  /** `error?.message || clientsError?.message`: the first message that is present and non-empty, else the second. */
  function ErrorMessage(error: Option<ApiError>, clientsError: Option<ApiError>): (m: Option<string>)
    ensures error.Some? && error.value.message.Some? && error.value.message.value != "" ==> m == error.value.message
    ensures (error.None? || error.value.message.None? || error.value.message.value == "") ==>
      m == (if clientsError.Some? then clientsError.value.message else None)
  {
    var first := if error.Some? then error.value.message else None;
    if first.Some? && first.value != "" then first
    else if clientsError.Some? then clientsError.value.message
    else None
  }

  /** The page: spinner while either query loads, then the error panel if
      either failed, then "not found" when either result is missing, else
      the detail. */
  function Render(invoice: QueryResult<InvoiceRecord>, clients: QueryResult<seq<Client>>): (v: View)
    ensures invoice.isLoading || clients.isLoading ==> v == Spinner
    ensures !invoice.isLoading && !clients.isLoading && (invoice.error.Some? || clients.error.Some?) ==> v.ErrorPanel?
    ensures v.ErrorPanel? ==> v.message == ErrorMessage(invoice.error, clients.error)
    ensures v.NotFound? <==>
      !invoice.isLoading && !clients.isLoading && invoice.error.None? && clients.error.None?
      && (invoice.data.None? || clients.data.None?)
    ensures v.Detail? ==>
      && invoice.data.Some? && clients.data.Some?
      && v.header == invoice.data.value.header
      && ItemsOf(v.rows) == invoice.data.value.items
      && v.total == Total(invoice.data.value.items)
    ensures (!invoice.isLoading && !clients.isLoading && invoice.error.None? && clients.error.None?
             && invoice.data.Some? && clients.data.Some?) ==>
      && v.Detail?
      && v.rows == Rows(invoice.data.value.items)
      && v.clientName == ClientName(clients.data.value, invoice.data.value.header.clientId)
  {
    if invoice.isLoading || clients.isLoading then Spinner
    else if invoice.error.Some? || clients.error.Some? then ErrorPanel(ErrorMessage(invoice.error, clients.error))
    else if invoice.data.None? || clients.data.None? then NotFound
    else
      var record := invoice.data.value;
      RowsRoundTrip(record.items);
      Detail(record.header, Rows(record.items), ClientName(clients.data.value, record.header.clientId), Total(record.items))
  }

  /** The values of the add and edit item dialogs. */
  datatype ItemForm = ItemForm(description: string, quantity: real, unitPrice: real)

  /** The values of the invoice header dialog. */
  datatype HeaderForm = HeaderForm(
    invoiceNumber: string,
    invoiceDate: string,
    dueDate: string,
    amount: real,
    status: string,
    notes: string,
    clientId: int)

  /** The mutations the page sends. */
  datatype Request =
    | CreateItem(invoiceId: int, description: string, quantity: real, unitPrice: real, total: real)
    | UpdateItem(id: int, invoiceId: int, description: string, quantity: real, unitPrice: real, total: real)
    | DeleteItem(itemId: int)
    | UpdateInvoice(id: int, header: HeaderForm)

  /** The dialogs' flags and the row being edited. */
  datatype Dialogs = Dialogs(
    addVisible: bool,
    editVisible: bool,
    headerVisible: bool,
    currentRecord: Option<ItemRow>)

  /** What a handler leaves behind: the dialogs, the request sent, and whether the page reloads. */
  datatype Effect = Effect(dialogs: Dialogs, request: Option<Request>, reload: bool)

  /** The add dialog's OK: creates an item of this invoice with its computed
      total; on success closes the dialog and reloads. */
  function HandleAddOk(d: Dialogs, header: Invoice, values: Option<ItemForm>, reply: Reply<()>): (e: Effect)
    ensures values.None? ==> e == Effect(d, None, false)
    ensures values.Some? ==> e.request.Some? && e.request.value.CreateItem?
    ensures values.Some? ==>
      var q := e.request.value;
      && q.total == values.value.quantity * values.value.unitPrice
      && q.invoiceId == header.id
      && q.description == values.value.description
      && q.quantity == values.value.quantity && q.unitPrice == values.value.unitPrice
    ensures values.Some? && reply.Ok? ==> e.reload && e.dialogs == d.(addVisible := false)
    ensures reply.Rejected? ==> e.dialogs == d && !e.reload
  {
    match values
    case None => Effect(d, None, false)
    case Some(f) =>
      var request := CreateItem(header.id, f.description, f.quantity, f.unitPrice, LineTotal(f.quantity, f.unitPrice));
      match reply
      case Ok(_) => Effect(d.(addVisible := false), Some(request), true)
      case Rejected => Effect(d, Some(request), false)
  }

  /** An item's Delete link: deletes it and reloads on success. */
  function HandleDelete(d: Dialogs, itemId: int, reply: Reply<()>): (e: Effect)
    ensures e.request == Some(DeleteItem(itemId)) && e.dialogs == d
    ensures e.reload <==> reply.Ok?
  {
    Effect(d, Some(DeleteItem(itemId)), reply.Ok?)
  }

  /** An item's Edit link: records the row and opens the edit dialog. */
  function HandleEdit(d: Dialogs, row: ItemRow): (r: Dialogs)
    ensures r.editVisible && r.currentRecord == Some(row)
    ensures r.addVisible == d.addVisible && r.headerVisible == d.headerVisible
  {
    d.(currentRecord := Some(row), editVisible := true)
  }

  /** The edit dialog's OK: updates the recorded item with its computed
      total. Without a recorded item nothing is sent, yet the dialog still
      closes and the page reloads. */
  function HandleEditOk(d: Dialogs, header: Invoice, values: Option<ItemForm>, reply: Reply<()>): (e: Effect)
    ensures values.None? ==> e == Effect(d, None, false)
    ensures values.Some? && d.currentRecord.None? ==> e == Effect(d.(editVisible := false), None, true)
    ensures values.Some? && d.currentRecord.Some? ==> e.request.Some? && e.request.value.UpdateItem?
    ensures values.Some? && d.currentRecord.Some? ==>
      var q := e.request.value;
      && q.id == d.currentRecord.value.item.id
      && q.invoiceId == header.id
      && q.total == values.value.quantity * values.value.unitPrice
      && q.description == values.value.description
      && q.quantity == values.value.quantity && q.unitPrice == values.value.unitPrice
    ensures values.Some? && d.currentRecord.Some? ==>
      (reply.Ok? ==> e.reload && e.dialogs == d.(editVisible := false)) &&
      (reply.Rejected? ==> !e.reload && e.dialogs == d)
  {
    match values
    case None => Effect(d, None, false)
    case Some(f) =>
      match d.currentRecord
      case None => Effect(d.(editVisible := false), None, true)
      case Some(row) =>
        var request := UpdateItem(row.item.id, header.id, f.description, f.quantity, f.unitPrice,
                                  LineTotal(f.quantity, f.unitPrice));
        match reply
        case Ok(_) => Effect(d.(editVisible := false), Some(request), true)
        case Rejected => Effect(d, Some(request), false)
  }

  /** The header dialog's OK: sends the form values under the invoice's own
      id. The amount is the form's, not recomputed from the items. */
  function HandleHeaderOk(d: Dialogs, header: Invoice, values: Option<HeaderForm>, reply: Reply<()>): (e: Effect)
    ensures values.None? ==> e == Effect(d, None, false)
    ensures values.Some? ==> e.request == Some(UpdateInvoice(header.id, values.value))
    ensures values.Some? ==> e.request.value.header.amount == values.value.amount
    ensures values.Some? ==> (e.reload <==> reply.Ok?)
    ensures values.Some? && reply.Ok? ==> e.dialogs == d.(headerVisible := false)
    ensures reply.Rejected? ==> e.dialogs == d
  {
    match values
    case None => Effect(d, None, false)
    case Some(f) =>
      match reply
      case Ok(_) => Effect(d.(headerVisible := false), Some(UpdateInvoice(header.id, f)), true)
      case Rejected => Effect(d, Some(UpdateInvoice(header.id, f)), false)
  }

  /** Edit link then OK: the update carries the clicked row's item id, this
      invoice's id and the recomputed line total. */
  lemma EditFlow(d: Dialogs, row: ItemRow, header: Invoice, form: ItemForm, reply: Reply<()>)
    ensures HandleEditOk(HandleEdit(d, row), header, Some(form), reply).request
      == Some(UpdateItem(row.item.id, header.id, form.description, form.quantity, form.unitPrice,
                         form.quantity * form.unitPrice))
  {
  }

  /** Every item created or updated from a dialog satisfies `total == quantity * unitPrice`. */
  predicate LineTotalsHold(items: seq<InvoiceItem>)
  {
    forall i :: 0 <= i < |items| ==> items[i].total == items[i].quantity * items[i].unitPrice
  }

  /** The sum of quantity times unit price over the items. */
  function Extended(items: seq<InvoiceItem>): real
  {
    if |items| == 0 then 0.0 else Extended(items[..|items| - 1]) + LineTotal(items[|items| - 1].quantity, items[|items| - 1].unitPrice)
  }

  /** When every line total holds, the shown total is the sum of quantity times unit price. */
  lemma {:induction false} TotalIsExtended(items: seq<InvoiceItem>)
    requires LineTotalsHold(items)
    ensures Total(items) == Extended(items)
    decreases |items|
  {
    if |items| > 0 {
      TotalIsExtended(items[..|items| - 1]);
    }
  }

  /** Two items, 2 at 10.5 and 1 at 5, total 26. */
  lemma TotalScenario(a: InvoiceItem, b: InvoiceItem)
    requires a.quantity == 2.0 && a.unitPrice == 10.5 && b.quantity == 1.0 && b.unitPrice == 5.0
    requires LineTotalsHold([a, b])
    ensures Total([a, b]) == 26.0
  {
    assert [a, b][0] == a && [a, b][1] == b;
    assert a.total == 21.0 && b.total == 5.0;
    assert [a, b][..1] == [a];
    assert [a][..0] == [];
    assert Total([a]) == 21.0;
  }
}

=== FILE: invoice_list.dfy ===
/** The list state behind the invoice table (`src/components/invoiceList.tsx`):
    a canonical list kept from the last fetch, the displayed list the table
    shows, four filter criteria, the dialogs' flags and the local patches
    applied after a successful delete, update or create. Each handler is a
    pure transition from one state to the next, together with the request
    it sends; the request's settlement is a parameter. */
module InvoiceList {
  import opened Collections
  import opened Records

  /** The values of the add/edit dialog: its three registered fields. */
  datatype InvoiceForm = InvoiceForm(invoiceNumber: string, dueDate: string, status: string)

  /** A table row. `Listed` is `{...invoice, key: invoice.id}`, built on load
      and on create; `Edited` is `{...values, id}`, written by the update
      patch, and carries no key and no other invoice field. */
  datatype Row =
    | Listed(invoice: Invoice)
    | Edited(id: int, form: InvoiceForm)

  function RowId(r: Row): int
  {
    match r
    case Listed(inv) => inv.id
    case Edited(id, _) => id
  }

  /** The row's `key` property; `None` when the row has none. */
  function RowKey(r: Row): Option<int>
  {
    match r
    case Listed(inv) => Some(inv.id)
    case Edited(_, _) => None
  }

  function RowInvoiceDate(r: Row): Option<string>
  {
    match r
    case Listed(inv) => Some(inv.invoiceDate)
    case Edited(_, _) => None
  }

  function RowClientId(r: Row): Option<int>
  {
    match r
    case Listed(inv) => Some(inv.clientId)
    case Edited(_, _) => None
  }

  function RowDueDate(r: Row): Option<string>
  {
    match r
    case Listed(inv) => Some(inv.dueDate)
    case Edited(_, form) => Some(form.dueDate)
  }

  function RowStatus(r: Row): Option<string>
  {
    match r
    case Listed(inv) => Some(inv.status)
    case Edited(_, form) => Some(form.status)
  }

  predicate UniqueIds(rows: seq<Row>)
  {
    forall i, j :: 0 <= i < j < |rows| ==> RowId(rows[i]) != RowId(rows[j])
  }

  /** The four filter criteria: invoice date, client, due date and status. */
  datatype Criteria = Criteria(
    date: Option<string>,
    client: Option<int>,
    dueDate: Option<string>,
    status: Option<string>)

  const NoCriteria := Criteria(None, None, None, None)

  /** `!value` for a string criterion: absent, or the empty string a cleared date picker yields. */
  predicate Blank(o: Option<string>)
  {
    o.None? || o.value == ""
  }

  /** `!value` for a numeric criterion or key: absent, or zero. */
  predicate BlankNumber(o: Option<int>)
  {
    o.None? || o.value == 0
  }

  /** A row passes when every criterion is blank or equals the row's field exactly. */
  predicate Matches(c: Criteria, r: Row): (b: bool)
    ensures AllBlank(c) ==> b
    ensures b && !Blank(c.date) ==> RowInvoiceDate(r) == c.date
    ensures b && !BlankNumber(c.client) ==> RowClientId(r) == c.client
    ensures b && !Blank(c.dueDate) ==> RowDueDate(r) == c.dueDate
    ensures b && !Blank(c.status) ==> RowStatus(r) == c.status
    ensures ((Blank(c.date) || RowInvoiceDate(r) == c.date) && (BlankNumber(c.client) || RowClientId(r) == c.client)
             && (Blank(c.dueDate) || RowDueDate(r) == c.dueDate) && (Blank(c.status) || RowStatus(r) == c.status)) ==> b
  {
    && (Blank(c.date) || RowInvoiceDate(r) == c.date)
    && (BlankNumber(c.client) || RowClientId(r) == c.client)
    && (Blank(c.dueDate) || RowDueDate(r) == c.dueDate)
    && (Blank(c.status) || RowStatus(r) == c.status)
  }

  predicate AllBlank(c: Criteria)
  {
    Blank(c.date) && BlankNumber(c.client) && Blank(c.dueDate) && Blank(c.status)
  }

  function MatchesCriteria(c: Criteria): Row -> bool
  {
    r => Matches(c, r)
  }

  function HasId(id: int): Row -> bool
  {
    r => RowId(r) == id
  }

  function LacksId(id: int): Row -> bool
  {
    r => RowId(r) != id
  }

  datatype State = State(
    original: seq<Row>,
    displayed: seq<Row>,
    modalVisible: bool,
    deleteModalVisible: bool,
    selectedKey: Option<int>,
    isEditMode: bool,
    editing: Option<Row>,
    criteria: Criteria,
    isSubmitting: bool)

  const Initial := State([], [], false, false, None, false, None, NoCriteria, false)

  /** The mutation a handler sends to the invoice endpoint. */
  datatype Request =
    | DeleteInvoice(id: int)
    | UpdateInvoice(id: int, form: InvoiceForm)
    | CreateInvoice(form: InvoiceForm)

  datatype Step = Step(state: State, request: Option<Request>)

  function InvoiceId(inv: Invoice): int
  {
    inv.id
  }

  /** The invoices of a list of loaded rows, in order. */
  function Invoices(rows: seq<Row>): seq<Invoice>
    requires forall i :: 0 <= i < |rows| ==> rows[i].Listed?
  {
    seq(|rows|, i requires 0 <= i < |rows| => rows[i].invoice)
  }

  /** The rows built on load: a sorted copy of the fetched invoices, each tagged with its key. */
  function Normalise(fetched: seq<Invoice>): (rows: seq<Row>)
    ensures |rows| == |fetched|
    ensures forall i :: 0 <= i < |rows| ==> rows[i].Listed? && RowKey(rows[i]) == Some(RowId(rows[i]))
    ensures forall i, j :: 0 <= i < j < |rows| ==> RowId(rows[i]) <= RowId(rows[j])
    ensures multiset(Invoices(rows)) == multiset(fetched)
  {
    var sorted := SortBy(fetched, InvoiceId);
    var rows := seq(|sorted|, i requires 0 <= i < |sorted| => Listed(sorted[i]));
    assert Invoices(rows) == sorted;
    rows
  }

  /** Invoices sharing an id keep the order in which they were fetched. */
  lemma NormaliseStable(fetched: seq<Invoice>, id: int)
    ensures Filter(Invoices(Normalise(fetched)), KeyIs(InvoiceId, id)) == Filter(fetched, KeyIs(InvoiceId, id))
  {
    var sorted := SortBy(fetched, InvoiceId);
    assert Invoices(Normalise(fetched)) == sorted;
    SortByStable(fetched, InvoiceId, id);
  }

  /** The effect run when the fetched invoices arrive: both lists become the normalised rows. */
  function Load(s: State, fetched: seq<Invoice>): (r: State)
    ensures r.original == r.displayed == Normalise(fetched)
    ensures r == s.(original := r.original, displayed := r.displayed)
  {
    var rows := Normalise(fetched);
    s.(original := rows, displayed := rows)
  }

  /** The Delete link: remembers the row's id and opens the confirmation. */
  function HandleDelete(s: State, id: int): (r: State)
    ensures r.deleteModalVisible && r.selectedKey == Some(id)
    ensures r == s.(selectedKey := Some(id), deleteModalVisible := true)
    ensures r.displayed == s.displayed && r.original == s.original && r.modalVisible == s.modalVisible
  {
    s.(selectedKey := Some(id), deleteModalVisible := true)
  }

  /** The confirmation's OK: deletes `selectedKey` when it is truthy and, on
      success, drops the rows with that id from the displayed list. */
  function HandleOkDelete(s: State, reply: Reply<()>): (r: Step)
    ensures BlankNumber(s.selectedKey) ==> r == Step(s, None)
    ensures !BlankNumber(s.selectedKey) ==> r.request == Some(DeleteInvoice(s.selectedKey.value))
    ensures reply.Rejected? ==> r.state == s
    ensures !BlankNumber(s.selectedKey) && reply.Ok? ==>
      && IsSubsequence(r.state.displayed, s.displayed)
      && (forall i :: 0 <= i < |r.state.displayed| ==> RowId(r.state.displayed[i]) != s.selectedKey.value)
      && (forall i :: 0 <= i < |s.displayed| && RowId(s.displayed[i]) != s.selectedKey.value ==>
            s.displayed[i] in r.state.displayed)
      && (forall x :: multiset(r.state.displayed)[x] ==
            if RowId(x) != s.selectedKey.value then multiset(s.displayed)[x] else 0)
      && r.state == s.(displayed := r.state.displayed, deleteModalVisible := false, selectedKey := None)
  {
    if BlankNumber(s.selectedKey) then Step(s, None)
    else
      var k := s.selectedKey.value;
      FilterMultiplicity(s.displayed, LacksId(k));
      var next := match reply
        case Ok(_) => s.(displayed := Filter(s.displayed, LacksId(k)), deleteModalVisible := false, selectedKey := None)
        case Rejected => s;
      Step(next, Some(DeleteInvoice(k)))
  }

  /** With unique ids, a successful delete of a present id removes exactly
      that row: one fewer, the others in their order. */
  lemma DeleteRemovesOne(s: State, i: nat)
    requires UniqueIds(s.displayed) && i < |s.displayed|
    requires s.selectedKey == Some(RowId(s.displayed[i])) && RowId(s.displayed[i]) != 0
    ensures HandleOkDelete(s, Ok(())).state.displayed == s.displayed[..i] + s.displayed[i + 1..]
    ensures |HandleOkDelete(s, Ok(())).state.displayed| == |s.displayed| - 1
  {
    FilterAllBut(s.displayed, LacksId(s.selectedKey.value), i);
  }

  /** Deleting an id no row carries leaves the displayed list as it was. */
  lemma DeleteAbsentKeepsRows(s: State, reply: Reply<()>)
    requires s.selectedKey.Some?
    requires forall i :: 0 <= i < |s.displayed| ==> RowId(s.displayed[i]) != s.selectedKey.value
    ensures HandleOkDelete(s, reply).state.displayed == s.displayed
  {
    if !BlankNumber(s.selectedKey) && reply.Ok? {
      FilterAll(s.displayed, LacksId(s.selectedKey.value));
    }
  }

  /** The Add button: opens the dialog in create mode. */
  function ShowModal(s: State): (r: State)
    ensures r.modalVisible && !r.isEditMode
    ensures r == s.(modalVisible := true, isEditMode := false)
    ensures r.editing == s.editing && r.displayed == s.displayed && r.original == s.original
  {
    s.(modalVisible := true, isEditMode := false)
  }

  /** The Edit link, as written: when a displayed row has the id it enters
      edit mode and opens the dialog, but never records which invoice is
      edited. */
  function HandleEdit(s: State, id: int): (r: State)
    ensures r.editing == s.editing && r.displayed == s.displayed
    ensures (exists i :: 0 <= i < |s.displayed| && RowId(s.displayed[i]) == id) ==>
      r == s.(isEditMode := true, modalVisible := true)
    ensures (forall i :: 0 <= i < |s.displayed| ==> RowId(s.displayed[i]) != id) ==> r == s
  {
    match Find(s.displayed, HasId(id))
    case Some(_) => s.(isEditMode := true, modalVisible := true)
    case None => s
  }

  /** The Edit link as evidently intended: it also records the row being edited. */
  function HandleEditIntended(s: State, id: int): (r: State)
    ensures (exists i :: 0 <= i < |s.displayed| && RowId(s.displayed[i]) == id) ==>
      && r.isEditMode && r.modalVisible && r.editing.Some?
      && (exists i :: 0 <= i < |s.displayed| && s.displayed[i] == r.editing.value && RowId(s.displayed[i]) == id
            && forall j :: 0 <= j < i ==> RowId(s.displayed[j]) != id)
    ensures (forall i :: 0 <= i < |s.displayed| ==> RowId(s.displayed[i]) != id) ==> r == s
    ensures r.displayed == s.displayed && r.original == s.original
  {
    match Find(s.displayed, HasId(id))
    case Some(row) => s.(isEditMode := true, editing := Some(row), modalVisible := true)
    case None => s
  }

  /** The dialog's OK. `values` is the validated form (`None` when
      validation rejects it) and `reply` the settlement of the request sent,
      if one is sent. The update branch needs both edit mode and a recorded
      invoice; the create branch needs create mode; otherwise nothing is sent.
      `isSubmitting` is always cleared at the end. */
  function HandleOk(s: State, values: Option<InvoiceForm>, reply: Reply<Invoice>): (r: Step)
    ensures !r.state.isSubmitting
    ensures r.state.original == s.original && r.state.criteria == s.criteria
    ensures values.None? ==> r == Step(s.(isSubmitting := false), None)
    ensures s.isEditMode && s.editing.None? ==> r.request.None? && r.state.displayed == s.displayed
    ensures values.Some? && s.isEditMode && s.editing.None? ==>
      r == Step(s.(modalVisible := false, isSubmitting := false), None)
    ensures r.request.Some? && reply.Rejected? ==> r.state == s.(isSubmitting := false)
    ensures values.Some? && !s.isEditMode ==> r.request == Some(CreateInvoice(values.value))
    ensures values.Some? && !s.isEditMode && reply.Ok? ==>
      && r.state.displayed == s.displayed + [Listed(reply.value)]
      && RowKey(r.state.displayed[|s.displayed|]) == Some(reply.value.id)
      && r.state == s.(displayed := s.displayed + [Listed(reply.value)], modalVisible := false, isSubmitting := false)
    ensures values.Some? && s.isEditMode && s.editing.Some? ==>
      r.request == Some(UpdateInvoice(RowId(s.editing.value), values.value))
    ensures values.Some? && s.isEditMode && s.editing.Some? && reply.Ok? ==>
      var id := RowId(s.editing.value);
      && |r.state.displayed| == |s.displayed|
      && (forall i :: 0 <= i < |s.displayed| && RowId(s.displayed[i]) != id ==>
            r.state.displayed[i] == s.displayed[i])
      && (forall i :: 0 <= i < |s.displayed| && RowId(s.displayed[i]) == id ==>
            r.state.displayed[i] == Edited(id, values.value))
      && r.state == s.(displayed := r.state.displayed, isEditMode := false, editing := None,
                       modalVisible := false, isSubmitting := false)
  {
    var s' := s.(isSubmitting := true);
    var done := match values
      case None => Step(s', None)
      case Some(form) =>
        if s'.isEditMode && s'.editing.Some? then
          var id := RowId(s'.editing.value);
          var next := match reply
            case Ok(_) =>
              s'.(displayed := ReplaceWhere(s'.displayed, HasId(id), Edited(id, form)),
                  isEditMode := false, editing := None, modalVisible := false)
            case Rejected => s';
          Step(next, Some(UpdateInvoice(id, form)))
        else if !s'.isEditMode then
          var next := match reply
            case Ok(created) => s'.(displayed := s'.displayed + [Listed(created)], modalVisible := false)
            case Rejected => s';
          Step(next, Some(CreateInvoice(form)))
        else
          Step(s'.(modalVisible := false), None);
    done.(state := done.state.(isSubmitting := false))
  }

  /** Either dialog's Cancel: closes both. */
  function HandleCancel(s: State): (r: State)
    ensures !r.modalVisible && !r.deleteModalVisible
    ensures r == s.(modalVisible := false, deleteModalVisible := false)
    ensures r.isEditMode == s.isEditMode && r.editing == s.editing && r.selectedKey == s.selectedKey
    ensures r.displayed == s.displayed && r.original == s.original
  {
    s.(modalVisible := false, deleteModalVisible := false)
  }

  /** The four filter widgets' `onChange`: only the criteria change. */
  function SetCriteria(s: State, c: Criteria): (r: State)
    ensures r.criteria == c
    ensures r == s.(criteria := c)
    ensures r.displayed == s.displayed && r.original == s.original
  {
    s.(criteria := c)
  }

  /** The Search button: the displayed list becomes the canonical rows that
      match the criteria, whatever was displayed before. */
  function Search(s: State): (r: State)
    ensures IsSubsequence(r.displayed, s.original)
    ensures forall i :: 0 <= i < |r.displayed| ==> Matches(s.criteria, r.displayed[i])
    ensures forall i :: 0 <= i < |s.original| && Matches(s.criteria, s.original[i]) ==>
      s.original[i] in r.displayed
    ensures forall x :: multiset(r.displayed)[x] == if Matches(s.criteria, x) then multiset(s.original)[x] else 0
    ensures r == s.(displayed := r.displayed)
  {
    FilterMultiplicity(s.original, MatchesCriteria(s.criteria));
    s.(displayed := Filter(s.original, MatchesCriteria(s.criteria)))
  }

  /** The Clear button: every criterion unset, the canonical list displayed again. */
  function Reset(s: State): (r: State)
    ensures AllBlank(r.criteria) && r.displayed == s.original
    ensures r == s.(criteria := NoCriteria, displayed := s.original)
  {
    s.(criteria := NoCriteria, displayed := s.original)
  }

  /** Searching with every criterion blank displays the canonical list, as Clear does. */
  lemma SearchAllBlank(s: State)
    requires AllBlank(s.criteria)
    ensures Search(s).displayed == s.original == Reset(s).displayed
  {
    FilterAll(s.original, MatchesCriteria(s.criteria));
  }

  /** A cleared date picker (the empty string) filters exactly like an unset one. */
  lemma ClearedDateIsUnset(s: State)
    requires s.criteria.date == Some("")
    ensures Search(s).displayed == Search(s.(criteria := s.criteria.(date := None))).displayed
  {
    FilterCongruent(s.original, MatchesCriteria(s.criteria), MatchesCriteria(s.criteria.(date := None)));
  }

  /** Searching twice with the same criteria gives the same rows. */
  lemma SearchIdempotent(s: State)
    ensures Search(Search(s)) == Search(s)
  {
  }

  /** Search filters the canonical list and not the displayed one: it gives
      the same rows from any displayed list, so it discards every local
      patch made since the last load. */
  lemma SearchIgnoresDisplayed(s: State, displayed: seq<Row>)
    ensures Search(s.(displayed := displayed)) == Search(s)
  {
  }

  /** The table's status tag colours; `caption` is the source's `label`, a reserved word in Dafny. */
  datatype StatusOption = StatusOption(value: string, caption: string, color: string)

  const InvoiceStatuses: seq<StatusOption> := [
    StatusOption("Invoiced", "Invoiced", "blue"),
    StatusOption("In payment", "In payment", "orange"),
    StatusOption("Paid", "Paid", "green"),
    StatusOption("Timed out", "Timed out", "red")
  ]

  function HasValue(status: string): StatusOption -> bool
  {
    (o: StatusOption) => o.value == status
  }

  /** The colour of the first listed status equal to `status`, else "default". */
  function StatusColor(status: string): (color: string)
    ensures status == "Invoiced" ==> color == "blue"
    ensures status == "In payment" ==> color == "orange"
    ensures status == "Paid" ==> color == "green"
    ensures status == "Timed out" ==> color == "red"
    ensures status != "Invoiced" && status != "In payment" && status != "Paid" && status != "Timed out" ==>
      color == "default"
  {
    match Find(InvoiceStatuses, HasValue(status))
    case Some(o) => o.color
    case None => "default"
  }

  /** Delete link then confirmation: the clicked id is deleted and, on
      success, no row with it remains while the others stay in order; an
      invoice whose id is 0 is never deleted, since 0 is falsy. */
  lemma DeleteFlow(s: State, id: int, reply: Reply<()>)
    ensures var r := HandleOkDelete(HandleDelete(s, id), reply);
      && (id == 0 ==> r.request.None? && r.state.displayed == s.displayed && r.state.deleteModalVisible)
      && (id != 0 ==> r.request == Some(DeleteInvoice(id)))
      && (id != 0 && reply.Ok? ==>
            && IsSubsequence(r.state.displayed, s.displayed)
            && (forall i :: 0 <= i < |r.state.displayed| ==> RowId(r.state.displayed[i]) != id)
            && (forall i :: 0 <= i < |s.displayed| && RowId(s.displayed[i]) != id ==>
                  s.displayed[i] in r.state.displayed)
            && (forall x :: multiset(r.state.displayed)[x] == if RowId(x) != id then multiset(s.displayed)[x] else 0)
            && !r.state.deleteModalVisible && r.state.selectedKey.None?)
      && r.state.original == s.original
  {
  }

  /** Add button then OK: the form is sent as a new invoice and, on success,
      exactly one row keyed by the new id is appended at the end. */
  lemma AddFlow(s: State, form: InvoiceForm, reply: Reply<Invoice>)
    ensures var r := HandleOk(ShowModal(s), Some(form), reply);
      && r.request == Some(CreateInvoice(form))
      && (reply.Ok? ==>
            && |r.state.displayed| == |s.displayed| + 1
            && r.state.displayed[..|s.displayed|] == s.displayed
            && r.state.displayed[|s.displayed|] == Listed(reply.value)
            && RowKey(r.state.displayed[|s.displayed|]) == Some(reply.value.id))
      && (reply.Rejected? ==> r.state.displayed == s.displayed && r.state.modalVisible)
  {
  }

  /** Changing a criterion does not refilter: the displayed list changes only on Search or Clear. */
  lemma CriteriaApplyOnSearch(s: State, c: Criteria)
    ensures SetCriteria(s, c).displayed == s.displayed
    ensures Search(SetCriteria(s, c)).displayed == Filter(s.original, MatchesCriteria(c))
  {
  }

  /** Everything the user and the fetch can do to the list. */
  datatype Event =
    | Fetched(invoices: seq<Invoice>)
    | DeleteClicked(id: int)
    | DeleteConfirmed(deleteReply: Reply<()>)
    | AddClicked
    | EditClicked(editId: int)
    | Submitted(values: Option<InvoiceForm>, reply: Reply<Invoice>)
    | Cancelled
    | CriteriaChanged(criteria: Criteria)
    | SearchClicked
    | ClearClicked

  function Apply(s: State, e: Event): State
  {
    match e
    case Fetched(invoices) => Load(s, invoices)
    case DeleteClicked(id) => HandleDelete(s, id)
    case DeleteConfirmed(reply) => HandleOkDelete(s, reply).state
    case AddClicked => ShowModal(s)
    case EditClicked(id) => HandleEdit(s, id)
    case Submitted(values, reply) => HandleOk(s, values, reply).state
    case Cancelled => HandleCancel(s)
    case CriteriaChanged(c) => SetCriteria(s, c)
    case SearchClicked => Search(s)
    case ClearClicked => Reset(s)
  }

  function Run(s: State, events: seq<Event>): State
    decreases |events|
  {
    if |events| == 0 then s else Run(Apply(s, events[0]), events[1..])
  }

  /** One event never records an invoice as being edited. */
  lemma ApplyKeepsEditingUnset(s: State, e: Event)
    requires s.editing.None?
    ensures Apply(s, e).editing.None?
  {
    match e
    case Submitted(values, reply) => assert HandleOk(s, values, reply).state.editing.None?;
    case _ =>
  }

  /** One event other than a fetch leaves the canonical list alone. */
  lemma ApplyKeepsOriginal(s: State, e: Event)
    requires NotFetched(e)
    ensures Apply(s, e).original == s.original
  {
    match e
    case Submitted(values, reply) => assert HandleOk(s, values, reply).state.original == s.original;
    case _ =>
  }

  /** No sequence of events ever records an invoice as being edited, so the
      update branch of the dialog's OK is unreachable from the initial state. */
  lemma {:induction false} EditingNeverRecorded(s: State, events: seq<Event>)
    requires s.editing.None?
    ensures Run(s, events).editing.None?
    decreases |events|
  {
    if |events| > 0 {
      ApplyKeepsEditingUnset(s, events[0]);
      EditingNeverRecorded(Apply(s, events[0]), events[1..]);
    }
  }

  /** From the initial state no submission ever sends an update. */
  lemma NoUpdateIsEverSent(events: seq<Event>, values: Option<InvoiceForm>, reply: Reply<Invoice>)
    ensures var request := HandleOk(Run(Initial, events), values, reply).request;
      request.None? || !request.value.UpdateInvoice?
  {
    EditingNeverRecorded(Initial, events);
  }

  predicate NotFetched(e: Event)
  {
    !e.Fetched?
  }

  /** Only a fetch changes the canonical list: deletes, updates and creates
      patch the displayed list alone. */
  lemma {:induction false} OnlyFetchChangesOriginal(s: State, events: seq<Event>)
    requires forall i :: 0 <= i < |events| ==> NotFetched(events[i])
    ensures Run(s, events).original == s.original
    decreases |events|
  {
    if |events| > 0 {
      ApplyKeepsOriginal(s, events[0]);
      OnlyFetchChangesOriginal(Apply(s, events[0]), events[1..]);
    }
  }

  /** Editing an existing row and submitting, as written: nothing is sent and
      the displayed list stays as it was, even when the server would accept. */
  lemma EditThenSubmitIsInert(s: State, i: nat, form: InvoiceForm, reply: Reply<Invoice>)
    requires s.editing.None? && i < |s.displayed|
    ensures var r := HandleOk(HandleEdit(s, RowId(s.displayed[i])), Some(form), reply);
      r.request.None? && r.state.displayed == s.displayed
  {
  }

  /** Editing an existing row and submitting, as intended: the update is sent
      for that id and, on success, every row with that id is replaced. */
  lemma IntendedEditUpdates(s: State, i: nat, form: InvoiceForm, reply: Reply<Invoice>)
    requires i < |s.displayed|
    ensures var id := RowId(s.displayed[i]);
      var r := HandleOk(HandleEditIntended(s, id), Some(form), reply);
      && r.request == Some(UpdateInvoice(id, form))
      && (reply.Ok? ==> |r.state.displayed| == |s.displayed| && r.state.displayed[i] == Edited(id, form))
  {
  }

  /** The filter scenario: client 7 selected over invoices 1 (client 7) and 2 (client 9). */
  lemma ClientFilterScenario(a: Invoice, b: Invoice)
    requires a.id == 1 && a.clientId == 7 && b.id == 2 && b.clientId == 9
    ensures Search(Initial.(original := [Listed(a), Listed(b)], criteria := NoCriteria.(client := Some(7)))).displayed
      == [Listed(a)]
  {
    var s := Initial.(original := [Listed(a), Listed(b)], criteria := NoCriteria.(client := Some(7)));
    assert [Listed(a), Listed(b)][1..] == [Listed(b)];
  }
}

=== FILE: js_number.dfy ===
/** The two number/string conversions the client list relies on:
    `Number.prototype.toString()` on an integer id and the global
    `parseInt` applied to the resulting key. */
module JsNumber {
  import opened Collections

  predicate IsDigit(c: char)
  {
    '0' <= c <= '9'
  }

  predicate AllDigits(s: string)
  {
    forall i :: 0 <= i < |s| ==> IsDigit(s[i])
  }

  function DigitChar(d: nat): (c: char)
    requires d < 10
    ensures IsDigit(c)
  {
    "0123456789"[d]
  }

  function DigitValue(c: char): (d: nat)
    requires IsDigit(c)
    ensures d < 10
  {
    c as int - '0' as int
  }

  /** Decimal digits of `n`, most significant first; "0" for zero. */
  function Digits(n: nat): (s: string)
    ensures |s| > 0 && AllDigits(s)
    decreases n
  {
    if n < 10 then [DigitChar(n)] else Digits(n / 10) + [DigitChar(n % 10)]
  }

  /** The digit string of a positive number has no leading zero. */
  lemma {:induction false} DigitsCanonical(n: nat)
    ensures n > 0 ==> Digits(n)[0] != '0'
    decreases n
  {
    if 0 < n < 10 {
      assert Digits(n) == [DigitChar(n)];
      assert DigitChar(n) == "0123456789"[n];
      assert "0123456789"[n] != '0';
    } else if n >= 10 {
      DigitsCanonical(n / 10);
      assert Digits(n)[0] == Digits(n / 10)[0];
    }
  }

  /** `toString` is canonical: "0" only for zero, and otherwise no zero
      leads the digits, with or without a sign. */
  lemma IntToStringCanonical(n: int)
    ensures IntToString(n) == "0" <==> n == 0
    ensures n > 0 ==> IntToString(n)[0] != '0'
    ensures n < 0 ==> IntToString(n)[0] == '-' && |IntToString(n)| > 1 && IntToString(n)[1] != '0'
  {
    if n > 0 {
      DigitsCanonical(n);
    } else if n < 0 {
      DigitsCanonical(-n);
      assert IntToString(n)[1..] == Digits(-n);
    } else {
      assert Digits(0) == [DigitChar(0)];
    }
  }

  /** `n.toString()` for an integer-valued number. */
  function IntToString(n: int): (s: string)
    ensures |s| > 0
    ensures n >= 0 ==> AllDigits(s)
    ensures n < 0 ==> s[0] == '-' && AllDigits(s[1..])
  {
    if n < 0 then "-" + Digits(-n) else Digits(n)
  }

  /** The value of a digit string read from left to right. */
  function ValueOf(s: string): nat
    requires AllDigits(s)
  {
    if |s| == 0 then 0 else 10 * ValueOf(s[..|s| - 1]) + DigitValue(s[|s| - 1])
  }

  /** The longest prefix of `s` made of decimal digits. */
  function DigitPrefix(s: string): (p: string)
    ensures |p| <= |s| && p == s[..|p|] && AllDigits(p)
    ensures |p| < |s| ==> !IsDigit(s[|p|])
  {
    if |s| == 0 || !IsDigit(s[0]) then []
    else
      var rest := DigitPrefix(s[1..]);
      assert [s[0]] + s[1..][..|rest|] == s[..|rest| + 1];
      [s[0]] + rest
  }

  predicate IsSpace(c: char)
  {
    c == ' ' || c == '\t' || c == '\n' || c == '\r'
  }

  /** `s` without its leading white space. */
  function TrimStart(s: string): (t: string)
    ensures |t| <= |s| && t == s[|s| - |t|..]
    ensures |t| > 0 ==> !IsSpace(t[0])
  {
    if |s| > 0 && IsSpace(s[0]) then TrimStart(s[1..]) else s
  }

  /** `parseInt(s)` on decimal input: leading white space and one sign are
      skipped, then the longest run of digits is read; `None` stands for `NaN`. */
  function ParseInt(s: string): (r: Option<int>)
    ensures r.None? <==> |DigitPrefix(Unsigned(TrimStart(s)))| == 0
  {
    var t := TrimStart(s);
    var digits := DigitPrefix(Unsigned(t));
    var magnitude: int := if |digits| == 0 then 0 else ValueOf(digits);
    if |digits| == 0 then None
    else if |t| > 0 && t[0] == '-' then Some(-magnitude)
    else Some(magnitude)
  }

  /** `t` without its leading sign, if it has one. */
  function Unsigned(t: string): string
  {
    if |t| > 0 && (t[0] == '-' || t[0] == '+') then t[1..] else t
  }

  /** Reading back the digits of `n` gives `n`. */
  lemma {:induction false} ValueOfDigits(n: nat)
    ensures ValueOf(Digits(n)) == n
    decreases n
  {
    if n >= 10 {
      var s := Digits(n);
      ValueOfDigits(n / 10);
      assert s[..|s| - 1] == Digits(n / 10);
      assert s[|s| - 1] == DigitChar(n % 10);
      assert DigitValue(DigitChar(n % 10)) == n % 10 by {
        var d := n % 10;
        assert "0123456789"[d] as int == '0' as int + d by {
          if d == 0 {} else if d == 1 {} else if d == 2 {} else if d == 3 {} else if d == 4 {}
          else if d == 5 {} else if d == 6 {} else if d == 7 {} else if d == 8 {} else {}
        }
      }
    } else {
      assert "0123456789"[n] as int == '0' as int + n by {
        if n == 0 {} else if n == 1 {} else if n == 2 {} else if n == 3 {} else if n == 4 {}
        else if n == 5 {} else if n == 6 {} else if n == 7 {} else if n == 8 {} else {}
      }
    }
  }

  /** `parseInt(n.toString()) == n` for every integer `n`: a key produced
      from an id parses back to that id. */
  lemma ParseIntOfIntToString(n: int)
    ensures ParseInt(IntToString(n)) == Some(n)
  {
    if n < 0 {
      ParseIntOfNegative(n);
    } else {
      ParseIntOfNonNegative(n);
    }
  }

  /** The round trip for a negative id: the sign and then the digits. */
  lemma ParseIntOfNegative(n: int)
    requires n < 0
    ensures ParseInt(IntToString(n)) == Some(n)
  {
    var m: nat := -n;
    var d := Digits(m);
    ValueOfDigits(m);
    ParseIntOfNegatedDigits(IntToString(n), d);
  }

  /** The round trip for a non-negative id: the digits alone. */
  lemma ParseIntOfNonNegative(n: nat)
    ensures ParseInt(IntToString(n)) == Some(n)
  {
    var d := Digits(n);
    ValueOfDigits(n);
    ParseIntOfDigits(IntToString(n), d);
  }

  /** A non-empty digit string parses to its value. */
  lemma ParseIntOfDigits(s: string, d: string)
    requires |d| > 0 && AllDigits(d) && s == d
    ensures ParseInt(s) == Some(ValueOf(d) as int)
  {
    TrimStartKeeps(s);
    UnsignedKeeps(s);
    DigitPrefixOfDigits(s);
  }

  /** A minus sign before a non-empty digit string negates its value. */
  lemma ParseIntOfNegatedDigits(s: string, d: string)
    requires |d| > 0 && AllDigits(d) && s == "-" + d
    ensures ParseInt(s) == Some(-(ValueOf(d) as int))
  {
    TrimStartKeeps(s);
    assert Unsigned(s) == d by { assert s[1..] == d; }
    DigitPrefixOfDigits(d);
  }

  /** A string that does not start with white space is its own trim. */
  lemma TrimStartKeeps(s: string)
    requires |s| > 0 && !IsSpace(s[0])
    ensures TrimStart(s) == s
  {
  }

  /** A string that starts with a digit has no sign to drop. */
  lemma UnsignedKeeps(s: string)
    requires |s| > 0 && IsDigit(s[0])
    ensures Unsigned(s) == s
  {
  }

  lemma DigitPrefixOfDigits(d: string)
    requires AllDigits(d)
    ensures DigitPrefix(d) == d
  {
    var p := DigitPrefix(d);
    assert |p| == |d|;
  }

  /** Distinct ids give distinct keys. */
  lemma IntToStringInjective(a: int, b: int)
    ensures IntToString(a) == IntToString(b) <==> a == b
  {
    if IntToString(a) == IntToString(b) {
      ParseIntOfIntToString(a);
      ParseIntOfIntToString(b);
    }
  }
}

=== FILE: protected_route.dfy ===
/** The route guard (`src/Features/ProtectedRoute.tsx`): from the state of
    the identity query it renders nothing, redirects to the landing page, or
    renders the protected children. */
module ProtectedRoute {
  import opened Records

  /** The identity the `me` query returns. */
  datatype User = User(name: string)

  /** The router location the guard was reached at. */
  datatype Location = Location(pathname: string)

  /** What the guard renders. `Redirect` is `<Navigate to replace state={{ from }} />`. */
  datatype Decision =
    | RenderNothing
    | Redirect(to: string, replace: bool, from: Location)
    | RenderChildren

  /** Loading wins over everything; then an error or missing data redirects
      to `/`, replacing the history entry and carrying the location; only
      a settled query with data and no error renders the children. */
  function Guard(me: QueryResult<User>, location: Location): (d: Decision)
    ensures me.isLoading ==> d == RenderNothing
    ensures !me.isLoading && me.error.Some? ==> d == Redirect("/", true, location)
    ensures !me.isLoading && me.data.None? ==> d == Redirect("/", true, location)
    ensures d == RenderChildren <==> !me.isLoading && me.error.None? && me.data.Some?
  {
    if me.isLoading then RenderNothing
    else if me.error.Some? || me.data.None? then Redirect("/", true, location)
    else RenderChildren
  }

  /** The authentication states the guard distinguishes. */
  datatype AuthState = Unknown | Authenticated(user: User) | Unauthenticated

  /** The authentication state a query result stands for. */
  function Resolve(me: QueryResult<User>): AuthState
  {
    if me.isLoading then Unknown
    else match (me.error, me.data)
      case (None, Some(user)) => Authenticated(user)
      case _ => Unauthenticated
  }

  /** What each authentication state should show. */
  function Decide(a: AuthState, location: Location): Decision
  {
    match a
    case Unknown => RenderNothing
    case Unauthenticated => Redirect("/", true, location)
    case Authenticated(_) => RenderChildren
  }

  /** The guard shows what the resolved authentication state calls for. */
  lemma GuardFollowsAuthState(me: QueryResult<User>, location: Location)
    ensures Guard(me, location) == Decide(Resolve(me), location)
  {
  }

  /** The redirect always leads to `/`, whatever the location, and is the
      only decision that depends on the location. */
  lemma RedirectTarget(me: QueryResult<User>, l1: Location, l2: Location)
    ensures Guard(me, l1).Redirect? ==> Guard(me, l1).to == "/" && Guard(me, l1).replace && Guard(me, l1).from == l1
    ensures Guard(me, l1).Redirect? <==> Guard(me, l2).Redirect?
    ensures !Guard(me, l1).Redirect? ==> Guard(me, l1) == Guard(me, l2)
  {
  }
}

=== FILE: records.dfy ===
/** The records the remote service returns and the shapes through which
    the views see a query or a mutation. */
module Records {
  import opened Collections

  /** An invoice as the invoice endpoint lists it. Dates are opaque,
      already-normalised `YYYY-MM-DD` strings; timestamps are integers. */
  datatype Invoice = Invoice(
    id: int,
    createdAt: int,
    invoiceNumber: string,
    invoiceDate: string,
    dueDate: string,
    amount: real,
    status: string,
    notes: string,
    sentAt: int,
    clientId: int)

  /** A client as the client endpoint lists it. */
  datatype Client = Client(
    id: int,
    createdAt: int,
    name: string,
    phone: string,
    email: string,
    address: string)

  /** One line of an invoice. */
  datatype InvoiceItem = InvoiceItem(
    id: int,
    description: string,
    quantity: real,
    unitPrice: real,
    total: real)

  /** The error object of a failed request; its `message` may be absent. */
  datatype ApiError = ApiError(message: Option<string>)

  /** The `{ data, error, isLoading }` triple a query hook yields. */
  datatype QueryResult<T> = QueryResult(isLoading: bool, error: Option<ApiError>, data: Option<T>)

  /** What `mutation(...).unwrap()` settles to: the server's reply, or a rejection. */
  datatype Reply<T> = Ok(value: T) | Rejected
}
